=== FILE: README.md ===
# YouTube downloader: the download registry, in Dafny

The YouTube downloader is a desktop window around one shared `DownloadManager`. The manager holds three containers:

- a FIFO queue of pending or paused download records;
- a dictionary of active downloads keyed by id, kept in insertion order;
- a list of completed downloads.

Its methods move records between these containers and change their `status` among `queued`, `downloading`, `paused`, `completed` and `error`. After every successful change the manager writes a state document. The document holds the queue and the last 50 history entries, and never the active downloads.

Around the manager, the window provides:

- `add_to_queue`, which checks the entered URL, cleans `v=` and `youtu.be` links to the canonical `https://www.youtube.com/watch?v=<id>` form (other links are queued as entered), queues it, and starts it at once when fewer than three downloads are active;
- start all, pause all, clear completed and clear history;
- a worker that processes every active download whose status is `downloading`.

The project models all of this.

| file | contents |
|---|---|
| `Items.dfy` | the download record; sequence operations, including dictionary assignment on an insertion-ordered table (`Put`) and the lemmas about it |
| `Registry.dfy` | the manager as a pure state machine: one function per method, the state document, and the lemmas about them |
| `Manager.dfy` | the `DownloadManager` class; its fields are updated in place, and every method is proved equal to its `Registry` function |
| `Queue.dfy` | the window commands and the worker, as functions on the registry, with their lemmas |
| `Commands.dfy` | the same commands as loops and methods on a `DownloadManager`, each proved against its `Queue` function |
| `Urls.dfy` | `str.strip`, `clean_youtube_url`, and the regular-expression search of `extract_video_id` |
| `Invariants.dfy` | any sequence of commands and restarts: statuses follow containers; with fresh ids, no id is held twice. A restart loads the document of the current state: every command that changes the queue or the history writes the file, and `Commands` proves that each command leaves a current file current |

Values from outside the program are parameters:

- The clock reading that forms an id (`stamp`) and the completion time (`now`). A worker pass takes one reading per completed id, `now(id)`, since each completion reads the clock when it happens.
- What URL parsing yields for the entry (`ParsedUrl`).
- How a transfer ended (`Outcome`: saved at a path, or failed).
- The state file, `stored`. Its value is None while no file exists.

The model keeps these behaviours of the code:

- active downloads are not persisted;
- pause and resume keep an item's progress;
- `start_download` has no capacity check;
- start-all starts two items, not three, when none is active;
- the `embed/`, `shorts/` and `youtu.be/` patterns never decide the result;
- `extract_video_id` finds an id in any URL containing `/` or `v=` followed by 11 id characters, whatever its host;
- clear-completed always empties the history, exactly as clear-history does.

## Model

| member | source | states |
|---|---|---|
| Manager.DownloadManager.constructor | main.py:22-26 | the manager starts empty, then loads the state file: queue and history come from the file if there is one, and the active table is empty |
| Manager.DownloadManager.SaveState | main.py:28-34 | afterwards the state file holds the queue and the last 50 history entries of the current state |
| Manager.DownloadManager.LoadState | main.py:36-43 | with a file, the queue and history are replaced by the file's; without one, nothing changes |
| Manager.DownloadManager.QueueIndex | main.py:58-59 | the loop finds the position of the first queue item with the id, or the queue length when there is none |
| Manager.DownloadManager.PausedIndex | main.py:78-79 | the loop finds the first queue item with the id and status `paused`, or the queue length |
| Manager.DownloadManager.AddDownload | main.py:45-55 | the id is the URL, `_` and the clock reading; exactly one `queued` item with progress 0 is appended to the queue tail; active and history are unchanged; the state is saved |
| Manager.DownloadManager.StartDownload | main.py:57-66 | the new state and result are those of `Registry.Start`; the active table stays a dictionary; the file is written only on success |
| Manager.DownloadManager.PauseDownload | main.py:68-75 | new state and result are those of `Registry.Pause`; the file is written only on success |
| Manager.DownloadManager.ResumeDownload | main.py:77-83 | new state and result are those of `Registry.Resume`; the file is written only on success |
| Manager.DownloadManager.CompleteDownload | main.py:85-95 | new state and result are those of `Registry.Complete`; the file is written only on success |
| Manager.DownloadManager.RemoveDownload | main.py:97-111 | new state and result are those of `Registry.Remove`; the file is written only on success |
| Items.PutSpec | main.py:62 | dictionary assignment: afterwards the id maps to the new item and every other id to what it mapped to before; an existing key keeps its place and a new key goes last; distinct keys stay distinct |
| Items.IndexOf | main.py:58-59 | the first position holding the id, or the length when the id is absent |
| Items.IndexOfFinds | main.py:58-59 | the search finds a position exactly when the id occurs |
| Registry.StartMovesQueuedItem | main.py:57-66 | with unique ids, start succeeds exactly when the id is queued; the first item with the id leaves the queue and goes last in the active table as `downloading`; there is no capacity check, so the active table grows by one whatever its size; a failed start changes nothing |
| Registry.PauseSpec | main.py:68-75 | pause succeeds exactly for active ids; the item goes to the queue front as `paused`, the rest of the queue follows unchanged, the id leaves the active table and every other active entry stays as it was, in its order; otherwise nothing changes |
| Registry.ResumeSpec | main.py:77-83 | resume succeeds exactly when a `paused` queue item has the id; the id is then active as `downloading`, the result is that entry, and every other active entry stays as it was, in its order, with a newly active id placed last; with unique ids the result is the paused record now `downloading` and exactly that record leaves the queue; otherwise nothing changes |
| Registry.PauseThenResume | main.py:68-83 | pausing an active id and then resuming it restores the queue exactly; the item returns to the active table as `downloading`, last, with its progress kept |
| Registry.CompleteSpec | main.py:85-95 | completion succeeds exactly for active ids; the active record, with status `completed`, its file path and its completion time and otherwise unchanged, is appended to the end of the history, which is not capped in memory; the id leaves the active table, every other active entry stays in its order, and the queue is unchanged; otherwise nothing changes |
| Registry.RemoveSpec | main.py:97-111 | removal succeeds exactly when the id is active or queued; it looks in the active table first, leaving the queue alone and the other active entries in their order, and otherwise deletes the first queue entry with the id, leaving the active table alone; other active entries and the history never change; otherwise nothing changes |
| Registry.RemoveTwice | main.py:97-111 | with unique ids, a second removal of the same id returns false and changes nothing |
| Registry.SnapshotRoundTrip | main.py:28-43 | loading the saved document gives back the whole queue in order, no active item, and the last min(50, n) history entries, which are a suffix of the history; saving again writes the same document |
| Registry.SnapshotOmitsActive | main.py:28-34 | with unique ids, no id in the document belongs to an active item, and after a reload nothing is active |
| Registry.ReloadKeepsUnique | main.py:36-43 | reloading the document of a registry with unique ids gives unique ids |
| Registry.OperationsKeepWf | main.py:57-111 | every manager operation keeps the active table a dictionary, with one entry per id |
| Registry.StartIds | main.py:57-66 | start brings in no id; when the id is not already active it also loses none, so the ids held are kept with multiplicity |
| Registry.PauseIds | main.py:68-75 | pause keeps the set of ids held, with multiplicity |
| Registry.ResumeIds | main.py:77-83 | resume adds no id |
| Registry.CompleteIds | main.py:85-95 | completion keeps the ids held, with multiplicity |
| Registry.RemoveIds | main.py:97-111 | a successful removal drops exactly one occurrence of the id; a failed one changes nothing |
| Registry.AddIds | main.py:45-55 | adding brings in exactly the new id |
| Queue.EnqueueFresh | main.py:477-483 | with a fresh id: when fewer than 3 downloads are active, the new item is appended to the active table as `downloading` and the queue is unchanged; otherwise it waits at the queue tail; ids stay unique |
| Queue.EnqueueRespectsLimit | main.py:481-483 | the auto-start never takes an active table of at most 3 above 3 |
| Queue.StartAllRespectsLimit | main.py:542-552 | start-all never takes an active table of at most 3 above 3 |
| Queue.StartAllClosedForm | main.py:542-552 | with unique ids, start-all starts exactly the first min(queued, ⌈(3 − active)/2⌉) `queued` items, in queue order, skipping paused ones; they go last in the active table as `downloading`, and the rest of the queue keeps its order; with none active this is 2 items |
| Queue.StartedSize | main.py:542-552 | the started list has min(n, queued) items, all `downloading` |
| Queue.StartedLeftSplit | main.py:542-552 | the started items and the items left partition the queue's ids |
| Queue.PauseAllOrder | main.py:554-558 | after pause-all nothing is active and the history is unchanged; the queue is the formerly active items, `paused`, in reverse active order, followed by the old queue |
| Queue.PauseAllIds | main.py:554-558 | pause-all keeps the ids held, with multiplicity |
| Queue.ReversedIds | main.py:554-558 | reversing keeps the ids, with multiplicity |
| Queue.WithoutCompleted | main.py:562-565 | an entry is kept exactly when it is in the history and its status is not `completed` |
| Queue.ClearCompletedIsClearHistory | main.py:560-574 | while every history entry is `completed`, clear-completed equals clear-history |
| Queue.ClearIds | main.py:560-574 | both clean-ups only drop ids |
| Queue.Selected | main.py:586-588 | the worker selects exactly the ids of active items whose status is `downloading`; it selects none exactly when no such item exists |
| Queue.FailureStaysActive | main.py:671-684 | a failed transfer leaves the item in place in the active table with status `error` and every other active entry as it was; the ids, the queue, the history and the saved document are unchanged; the worker no longer selects the item |
| Queue.MarkErrorIds | main.py:676-677 | error marking keeps the ids and keeps the active table a dictionary |
| Queue.ProcessStep | main.py:595-688 | processing one id keeps the active table a dictionary; every `downloading` entry left was there before and has another id |
| Queue.WorkerPassSettles | main.py:581-599 | after one worker pass no active item is `downloading`: each selected transfer has been completed or marked as failed |
| Commands.Validate | main.py:456-469 | an entry is rejected as empty exactly when it is all whitespace; it is rejected as invalid exactly when it is not blank and extraction finds no id in its cleaned URL; an accepted entry carries the cleaned URL of the stripped entry and the 11-character id extraction finds in it |
| Commands.WatchLinksAccepted | main.py:456-469 | an entry whose `v` value starts with 11 id characters is accepted, with the canonical watch URL and those 11 characters as its id |
| Commands.AddToQueue | main.py:456-483 | the verdict is that of `Validate`; only an accepted entry changes the state, which becomes `Queue.Enqueue` of the cleaned URL and an id formed from the clock reading; the state file is then current |
| Commands.StartAll | main.py:542-552 | the loop over a copy of the queue leaves the state of `Queue.StartAll`; a current state file stays current |
| Commands.PauseAll | main.py:554-558 | the loop over the active keys leaves the state of `Queue.PauseAll`; a current state file stays current |
| Commands.ClearCompleted | main.py:560-568 | the history keeps only the entries that are not `completed`; the state is saved |
| Commands.ClearHistory | main.py:570-574 | the history is emptied; the state is saved |
| Commands.ProcessDownload | main.py:595-599 | the new state is that of `Queue.Process`; a failure does not write the state file and changes nothing it holds, so a current file stays current |
| Commands.WorkerPass | main.py:581-593 | one pass over the snapshot of the active table leaves the state of `Queue.WorkerPass`, each completion stamped with its own clock reading; a current state file stays current |
| Urls.Strip | main.py:457 | the result is empty exactly when the entry is all whitespace; otherwise it starts and ends with non-whitespace; it is a contiguous part of the entry, and everything removed is whitespace |
| Urls.StripIdempotent | main.py:457 | stripping twice equals stripping once |
| Urls.CleanYoutubeUrl | main.py:318-342 | when parsing fails the URL is returned unchanged; a non-empty `v` value gives the canonical watch URL of that value; otherwise a `youtu.be` link gives the watch URL of its path without the first character, and any other URL is returned unchanged |
| Urls.ShortAndLongAgree | main.py:325-338 | a `youtu.be/<v>` link and a watch link with `v=<v>` clean to the same canonical URL |
| Urls.MatchAtSpec | main.py:374-382 | a pattern matches at a position exactly when one of its alternatives is followed there by 11 id characters; the group is that of the first such alternative |
| Urls.SearchFrom | main.py:380-381 | the search finds nothing exactly when no position matches |
| Urls.SearchFindsLeftmost | main.py:380-381 | the search returns the match at the leftmost matching position |
| Urls.ExtractVideoId | main.py:372-385 | the result is None or an 11-character string over `[0-9A-Za-z_-]` |
| Urls.ExtractFindsIdInUrl | main.py:372-385 | a returned id occurs in the URL |
| Urls.OnlyFirstPatternCounts | main.py:374-385 | the result is always that of the first pattern; the `embed/`, `shorts/` and `youtu.be/` patterns cannot match where it does not |
| Urls.ExtractAcceptsIff | main.py:372-385 | `extract_video_id` finds an id exactly when `v=` or `/` is followed somewhere by 11 id characters, whatever the host |
| Urls.CanonicalYieldsId | main.py:318-385 | for a value starting with 11 id characters, extraction from its canonical watch URL gives those 11 characters |
| Invariants.StepConsistent | main.py:45-111 | every command and every restart keeps the invariant: queue items are `queued` or `paused`, active items `downloading` or `error`, history entries `completed` |
| Invariants.RunConsistent | main.py:45-111 | the same holds after any sequence of commands |
| Invariants.ClearCommandsAgree | main.py:560-574 | in every reachable state, clear-completed and clear-history do the same |
| Invariants.StepKeepsUnique | main.py:45-111 | each command keeps ids unique, provided an added id is fresh |
| Invariants.RunKeepsUnique | main.py:45-111 | with fresh ids, no reachable registry holds an id twice |
| Invariants.NeverQueuedAndActive | main.py:22-111 | from a start with unique ids in the file and with fresh ids, no id is ever both queued and active, and the active table stays a dictionary |

## Left out

- User interface: the Tk window, the tree view, click hit-testing, status labels and error dialogs. The dialogs become the `Verdict` of `Commands.Validate`.
- Media work: the pytube and moviepy calls, stream choice, MP3 conversion, `get_video_info`, and thumbnail and preview fetching. A transfer is reduced to its `Outcome`.
- `on_progress`: it computes a floating-point percentage, and `progress` is never read by the modelled operations.
- Threads, the two-second polling and the interleaving of the worker with window commands. Each command runs atomically, and a worker pass is a sequence of `process_download` calls.
- JSON encoding and file I/O. The file is a `Snapshot` value.
- A missing `queue` or `history` key defaults to empty in `load_state`; a document with such a key missing cannot be written by `save_state`, so the `Snapshot` type always has both.
- The errors `load_state` lets through (a corrupt file) and failures while writing the file.
- `time.time()`: the id suffix and the completion times are parameters. That ids are fresh is a hypothesis of the invariant lemmas, not something the model guarantees.
- `urlparse` and `parse_qs`: their result is the `ParsedUrl` parameter, which is None when parsing raises.
- Regular expressions in general. Only the four patterns of `extract_video_id` are modelled, as literal alternatives followed by the id class, searched leftmost-first; the trailing `.*` always matches and is dropped.
- `open_download_folder` and the directory dialog: calls into the operating system.
- Item records are values. Python shares one record between containers, but each method finishes with a record in exactly one container, so this sharing never shows. The start-all loop reads statuses from its copied list; a start only touches an item the loop has already reached, so reading the copy gives the same result as reading the live records.

=== FILE: Commands.dfy ===
/** The commands of the downloader window that drive the shared
    `DownloadManager`: adding an entered URL, start all, pause all, the two
    history clean-ups, and the worker that processes running downloads. Each
    is proved against the registry function of module Queue that describes
    it. */
module Commands {
  import opened Wrappers
  import opened Items
  import opened Urls
  import Registry
  import Queue
  import opened Manager

  // ---------------------------------------------------------------------
  // Adding an entered URL
  // ---------------------------------------------------------------------

  /** How `add_to_queue` judges the entry: blank, not a YouTube URL, or
      accepted with its cleaned address and its video id. */
  datatype Verdict = EmptyUrl | InvalidUrl | Accepted(clean: string, videoId: string)

  /** The checks of `add_to_queue`. `parsed` is what URL parsing yields for
      the stripped entry (None when it raises). */
  function Validate(entry: string, parsed: Option<ParsedUrl>): (r: Verdict)
    ensures r.EmptyUrl? <==> forall k :: 0 <= k < |entry| ==> IsSpace(entry[k])
    ensures r.Accepted? ==> IsVideoId(r.videoId) && ExtractVideoId(r.clean) == Some(r.videoId)
    ensures r.Accepted? ==> r.clean == CleanYoutubeUrl(Strip(entry), parsed)
    ensures r.InvalidUrl? <==> Strip(entry) != [] && ExtractVideoId(CleanYoutubeUrl(Strip(entry), parsed)).None?
  {
    var url := Strip(entry);
    if url == [] then EmptyUrl
    else
      var clean := CleanYoutubeUrl(url, parsed);
      match ExtractVideoId(clean)
      case None => InvalidUrl
      case Some(v) => Accepted(clean, v)
  }

  /** An entry whose `v` parameter starts with an id-shaped value is accepted
      with that value's first 11 characters as its id and the canonical
      watch address as its URL, whatever else the entry holds. */
  lemma WatchLinksAccepted(entry: string, p: ParsedUrl, video: string)
    requires exists k :: 0 <= k < |entry| && !IsSpace(entry[k])
    requires p.v == Some(video) && IdAt(video, 0)
    ensures Validate(entry, Some(p)) == Accepted(WatchUrl(video), video[..IdLength])
  {
    CanonicalYieldsId(video);
  }

  /** `add_to_queue`: reject a blank or invalid entry; otherwise add the
      cleaned URL (the id comes from `stamp`, the clock reading) and start it
      when fewer than three downloads are active. */
  method AddToQueue(m: DownloadManager, entry: string, parsed: Option<ParsedUrl>, options: Options, stamp: string)
    returns (verdict: Verdict, id: Option<string>)
    requires m.Valid()
    modifies m
    ensures m.Valid()
    ensures verdict == Validate(entry, parsed)
    ensures id.Some? <==> verdict.Accepted?
    ensures verdict.Accepted? ==>
      && id.value == verdict.clean + "_" + stamp
      && m.State() == Queue.Enqueue(old(m.State()), verdict.clean, options, id.value)
      && m.Persisted()
    ensures !verdict.Accepted? ==> m.State() == old(m.State()) && m.stored == old(m.stored)
  {
    verdict := Validate(entry, parsed);
    if !verdict.Accepted? {
      return verdict, None;
    }
    var added := m.AddDownload(verdict.clean, options, stamp);
    if |m.active| < Queue.MaxActive {
      var _ := m.StartDownload(added);
    }
    id := Some(added);
  }

  // ---------------------------------------------------------------------
  // Start all, pause all
  // ---------------------------------------------------------------------

  /** `start_all_downloads`. */
  method StartAll(m: DownloadManager)
    requires m.Valid()
    modifies m
    ensures m.Valid()
    ensures m.State() == Queue.StartAll(old(m.State()))
    ensures m.Persisted() || m.stored == old(m.stored)
    ensures old(m.Persisted()) ==> m.Persisted()
  {
    var items := m.queue;
    var count := 0;
    var k := 0;
    while k < |items|
      invariant 0 <= k <= |items|
      invariant m.Valid()
      invariant Queue.StartAllFrom(m.State(), items[k..], count) == Queue.StartAll(old(m.State()))
      invariant m.Persisted() || m.stored == old(m.stored)
      invariant old(m.Persisted()) ==> m.Persisted()
      decreases |items| - k
    {
      if count >= Queue.MaxActive - |m.active| {
        break;
      }
      assert items[k..][0] == items[k] && items[k..][1..] == items[k + 1..];
      if items[k].status == Queued {
        var _ := m.StartDownload(items[k].id);
        count := count + 1;
      }
      k := k + 1;
    }
  }

  /** `pause_all_downloads`: pause each active id in turn. */
  method PauseAll(m: DownloadManager)
    requires m.Valid()
    modifies m
    ensures m.Valid()
    ensures m.State() == Queue.PauseAll(old(m.State()))
    ensures m.Persisted() || m.stored == old(m.stored)
    ensures old(m.Persisted()) ==> m.Persisted()
  {
    var keys := Ids(m.active);
    ghost var a0 := m.active;
    ghost var q0 := m.queue;
    var k := 0;
    while k < |keys|
      invariant 0 <= k <= |keys|
      invariant m.Valid()
      invariant m.active == a0[k..]
      invariant m.queue == Queue.Reversed(Queue.PausedCopies(a0[..k])) + q0
      invariant m.history == old(m.history)
      invariant m.Persisted() || m.stored == old(m.stored)
      invariant old(m.Persisted()) ==> m.Persisted()
    {
      assert a0[k..][0].id == keys[k];
      assert IndexOf(m.active, keys[k]) == 0;
      var _ := m.PauseDownload(keys[k]);
      PausedStep(a0, k);
      assert a0[k..][1..] == a0[k + 1..];
      k := k + 1;
    }
    assert a0[..k] == a0;
  }

  /** One more pause puts the next paused copy in front. */
  lemma PausedStep(a: seq<Item>, k: nat)
    requires k < |a|
    ensures Queue.Reversed(Queue.PausedCopies(a[..k + 1]))
      == [a[k].(status := Paused)] + Queue.Reversed(Queue.PausedCopies(a[..k]))
  {
    var p := Queue.PausedCopies(a[..k + 1]);
    assert p[..|p| - 1] == Queue.PausedCopies(a[..k]);
  }

  // ---------------------------------------------------------------------
  // History
  // ---------------------------------------------------------------------

  /** `clear_completed`. */
  method ClearCompleted(m: DownloadManager)
    requires m.Valid()
    modifies m
    ensures m.Valid()
    ensures m.State() == Queue.ClearCompleted(old(m.State()))
    ensures m.Persisted()
  {
    m.history := Queue.WithoutCompleted(m.history);
    m.SaveState();
  }

  /** `clear_history`. */
  method ClearHistory(m: DownloadManager)
    requires m.Valid()
    modifies m
    ensures m.Valid()
    ensures m.State() == Queue.ClearHistory(old(m.State()))
    ensures m.Persisted()
  {
    m.history := [];
    m.SaveState();
  }

  // ---------------------------------------------------------------------
  // The worker
  // ---------------------------------------------------------------------

  /** `process_download` once the transfer has ended. A failure only marks
      the item: the state file is not written. */
  method ProcessDownload(m: DownloadManager, id: string, outcome: Queue.Outcome, now: real)
    requires m.Valid()
    modifies m
    ensures m.Valid()
    ensures m.State() == Queue.Process(old(m.State()), id, outcome, now)
    ensures outcome.Failed? ==> m.stored == old(m.stored)
    ensures m.Persisted() || (m.stored == old(m.stored) && Registry.Save(m.State()) == Registry.Save(old(m.State())))
    ensures old(m.Persisted()) ==> m.Persisted()
  {
    var j := IndexOf(m.active, id);
    if j == |m.active| || m.active[j].status != Downloading {
      return;
    }
    match outcome
    case Saved(path) =>
      var _ := m.CompleteDownload(id, path, now);
    case Failed =>
      Queue.MarkErrorIds(m.State(), id);
      m.active := m.active[j := m.active[j].(status := Error)];
  }

  /** One pass of `download_manager_worker`: every id that is `downloading`
      in the snapshot of the active table is processed in order; a
      completion reads the clock when it happens, `now(id)`. */
  method WorkerPass(m: DownloadManager, outcome: string -> Queue.Outcome, now: string -> real)
    requires m.Valid()
    modifies m
    ensures m.Valid()
    ensures m.State() == Queue.WorkerPass(old(m.State()), outcome, now)
    ensures m.Persisted() || m.stored == old(m.stored)
    ensures old(m.Persisted()) ==> m.Persisted()
  {
    var ids := Queue.Selected(m.active);
    var k := 0;
    while k < |ids|
      invariant 0 <= k <= |ids|
      invariant m.Valid()
      invariant Queue.ProcessAll(m.State(), ids[k..], outcome, now) == Queue.WorkerPass(old(m.State()), outcome, now)
      invariant m.Persisted() || m.stored == old(m.stored)
      invariant old(m.Persisted()) ==> m.Persisted()
    {
      assert ids[k..][0] == ids[k] && ids[k..][1..] == ids[k + 1..];
      ProcessDownload(m, ids[k], outcome(ids[k]), now(ids[k]));
      k := k + 1;
    }
  }
}

=== FILE: Invariants.dfy ===
/** What holds in every registry the program can reach: any sequence of
    commands from the window and the worker, and restarts that reload the
    state document, keeps each item's status in line with the container
    holding it and, as long as every new id is fresh, never holds an id
    twice. */
module Invariants {
  import opened Wrappers
  import opened Items
  import opened Registry
  import opened Queue

  /** One command applied to the registry. */
  datatype Command =
    | Enter(url: string, options: Options, id: string)  // an accepted `add_to_queue`
    | StartOne(id: string)
    | PauseOne(id: string)
    | ResumeOne(id: string)
    | RemoveOne(id: string)
    | StartEverything
    | PauseEverything
    | ClearDone
    | ClearAll
    | Finish(id: string, outcome: Outcome, now: real)  // `process_download` after the transfer
    | Restart                                           // a new process loading the state file, which holds
                                                        // the current state's document: every command keeps
                                                        // a current file current (module Commands)

  function Step(s: State, c: Command): State {
    match c
    case Enter(url, options, id) => Enqueue(s, url, options, id)
    case StartOne(id) => Start(s, id).0
    case PauseOne(id) => Pause(s, id).0
    case ResumeOne(id) => Resume(s, id).0
    case RemoveOne(id) => Remove(s, id).0
    case StartEverything => StartAll(s)
    case PauseEverything => PauseAll(s)
    case ClearDone => ClearCompleted(s)
    case ClearAll => ClearHistory(s)
    case Finish(id, outcome, now) => Process(s, id, outcome, now)
    case Restart => Load(Some(Save(s)))
  }

  function Run(s: State, cs: seq<Command>): State
    decreases |cs|
  {
    if cs == [] then s else Run(Step(s, cs[0]), cs[1..])
  }

  /** Every id an `Enter` command brings is new to the registry at that point. */
  ghost predicate FreshIds(s: State, cs: seq<Command>)
    decreases |cs|
  {
    cs == [] ||
    ((cs[0].Enter? ==> cs[0].id !in AllIds(s)) && FreshIds(Step(s, cs[0]), cs[1..]))
  }

  // ---------------------------------------------------------------------
  // Statuses follow containers
  // ---------------------------------------------------------------------

  /** Queue items are `queued` or `paused`, active items `downloading` or
      `error`, history entries `completed`. */
  ghost predicate Consistent(s: State) {
    && (forall x :: x in s.queue ==> x.status == Queued || x.status == Paused)
    && (forall x :: x in s.active ==> x.status == Downloading || x.status == Error)
    && (forall x :: x in s.history ==> x.status == Completed)
  }

  lemma RemoveAtSubset(s: seq<Item>, i: nat)
    requires i < |s|
    ensures forall x :: x in RemoveAt(s, i) ==> x in s
  {
  }

  lemma StartConsistent(s: State, id: string)
    requires Consistent(s)
    ensures Consistent(Start(s, id).0)
  {
    var i := IndexOf(s.queue, id);
    if i < |s.queue| {
      RemoveAtSubset(s.queue, i);
      PutMembers(s.active, s.queue[i].(status := Downloading));
    }
  }

  lemma {:induction false} StartAllFromConsistent(s: State, items: seq<Item>, count: int)
    requires Consistent(s)
    ensures Consistent(StartAllFrom(s, items, count))
    decreases |items|
  {
    if items == [] || count >= MaxActive - |s.active| {
    } else if items[0].status == Queued {
      StartConsistent(s, items[0].id);
      StartAllFromConsistent(Start(s, items[0].id).0, items[1..], count + 1);
    } else {
      StartAllFromConsistent(s, items[1..], count);
    }
  }

  lemma StepConsistent(s: State, c: Command)
    requires Consistent(s)
    ensures Consistent(Step(s, c))
  {
    match c
    case Enter(url, options, id) =>
      StartConsistent(Add(s, id, url, options), id);
    case StartOne(id) =>
      StartConsistent(s, id);
    case PauseOne(id) =>
      PauseConsistent(s, id);
    case ResumeOne(id) =>
      ResumeConsistent(s, id);
    case RemoveOne(id) =>
      RemoveConsistent(s, id);
    case StartEverything =>
      StartAllFromConsistent(s, s.queue, 0);
    case PauseEverything =>
      PauseAllConsistent(s);
    case ClearDone =>
    case ClearAll =>
    case Finish(id, outcome, now) =>
      ProcessConsistent(s, id, outcome, now);
    case Restart =>
      ReloadConsistent(s);
  }

  lemma PauseConsistent(s: State, id: string)
    requires Consistent(s)
    ensures Consistent(Pause(s, id).0)
  {
    var j := IndexOf(s.active, id);
    if j < |s.active| { RemoveAtSubset(s.active, j); }
  }

  lemma ResumeConsistent(s: State, id: string)
    requires Consistent(s)
    ensures Consistent(Resume(s, id).0)
  {
    var i := PausedIndexOf(s.queue, id);
    if i < |s.queue| {
      StartConsistent(s.(queue := s.queue[i := s.queue[i].(status := Queued)]), id);
    }
  }

  lemma RemoveConsistent(s: State, id: string)
    requires Consistent(s)
    ensures Consistent(Remove(s, id).0)
  {
    var j := IndexOf(s.active, id);
    if j < |s.active| {
      RemoveAtSubset(s.active, j);
    } else {
      var i := IndexOf(s.queue, id);
      if i < |s.queue| { RemoveAtSubset(s.queue, i); }
    }
  }

  lemma PauseAllConsistent(s: State)
    requires Consistent(s)
    ensures Consistent(PauseAll(s))
  {
    var p := PausedCopies(s.active);
    forall x | x in Reversed(p) ensures x.status == Paused {
      var k :| 0 <= k < |Reversed(p)| && Reversed(p)[k] == x;
      ReversedAt(p, k);
    }
  }

  lemma ProcessConsistent(s: State, id: string, outcome: Outcome, now: real)
    requires Consistent(s)
    ensures Consistent(Process(s, id, outcome, now))
  {
    var j := IndexOf(s.active, id);
    if j < |s.active| { RemoveAtSubset(s.active, j); }
  }

  lemma ReloadConsistent(s: State)
    requires Consistent(s)
    ensures Consistent(Load(Some(Save(s))))
  {
    var h := s.history;
    assert forall x :: x in Recent(h) ==> x in h;
  }

  /** Every reachable registry is consistent. */
  lemma {:induction false} RunConsistent(s: State, cs: seq<Command>)
    requires Consistent(s)
    ensures Consistent(Run(s, cs))
    decreases |cs|
  {
    if cs != [] {
      StepConsistent(s, cs[0]);
      RunConsistent(Step(s, cs[0]), cs[1..]);
    }
  }

  /** In every reachable registry, clearing the completed entries empties the
      history: the two history commands do the same. */
  lemma ClearCommandsAgree(s: State, cs: seq<Command>)
    requires Consistent(s)
    ensures ClearCompleted(Run(s, cs)) == ClearHistory(Run(s, cs))
  {
    RunConsistent(s, cs);
    var h := Run(s, cs).history;
    assert forall k :: 0 <= k < |h| ==> h[k] in h;
    ClearCompletedIsClearHistory(Run(s, cs));
  }

  // ---------------------------------------------------------------------
  // Unique ids
  // ---------------------------------------------------------------------

  /** Starting the items from `count` on brings in no id. */
  ghost predicate StartsNoNewId(s: State, items: seq<Item>, count: int) {
    AllIds(StartAllFrom(s, items, count)) <= AllIds(s)
  }

  lemma {:induction false} StartAllFromIds(s: State, items: seq<Item>, count: int)
    ensures StartsNoNewId(s, items, count)
    decreases |items|
  {
    if items == [] || count >= MaxActive - |s.active| {
      StoppedIds(s, items, count);
    } else if items[0].status == Queued {
      StartAllFromIds(Start(s, items[0].id).0, items[1..], count + 1);
      StartedIdsStep(s, items, count);
    } else {
      StartAllFromIds(s, items[1..], count);
      SkippedIdsStep(s, items, count);
    }
  }

  lemma StoppedIds(s: State, items: seq<Item>, count: int)
    requires items == [] || count >= MaxActive - |s.active|
    ensures StartsNoNewId(s, items, count)
  {
    assert StartAllFrom(s, items, count) == s;
  }

  lemma StartedIdsStep(s: State, items: seq<Item>, count: int)
    requires items != [] && count < MaxActive - |s.active| && items[0].status == Queued
    requires StartsNoNewId(Start(s, items[0].id).0, items[1..], count + 1)
    ensures StartsNoNewId(s, items, count)
  {
    var t := Start(s, items[0].id).0;
    StartIds(s, items[0].id);
    assert StartAllFrom(s, items, count) == StartAllFrom(t, items[1..], count + 1);
    assert AllIds(StartAllFrom(t, items[1..], count + 1)) <= AllIds(t) <= AllIds(s);
  }

  lemma SkippedIdsStep(s: State, items: seq<Item>, count: int)
    requires items != [] && count < MaxActive - |s.active| && items[0].status != Queued
    requires StartsNoNewId(s, items[1..], count)
    ensures StartsNoNewId(s, items, count)
  {
    assert StartAllFrom(s, items, count) == StartAllFrom(s, items[1..], count);
  }

  lemma ProcessIds(s: State, id: string, outcome: Outcome, now: real)
    ensures AllIds(Process(s, id, outcome, now)) == AllIds(s)
  {
    match outcome
    case Saved(path) => CompleteIds(s, id, path, now);
    case Failed => MarkErrorIds(s, id);
  }

  lemma StepKeepsUnique(s: State, c: Command)
    requires Unique(s)
    requires c.Enter? ==> c.id !in AllIds(s)
    ensures Unique(Step(s, c))
  {
    match c
    case Enter(url, options, id) =>
      EnqueueFresh(s, url, options, id);
    case StartOne(id) =>
      StartIds(s, id);
      FewerIdsStayUnique(s, Step(s, c));
    case PauseOne(id) =>
      PauseIds(s, id);
    case ResumeOne(id) =>
      ResumeIds(s, id);
      FewerIdsStayUnique(s, Step(s, c));
    case RemoveOne(id) =>
      RemoveIds(s, id);
      FewerIdsStayUnique(s, Step(s, c));
    case StartEverything =>
      StartAllFromIds(s, s.queue, 0);
      FewerIdsStayUnique(s, Step(s, c));
    case PauseEverything =>
      PauseAllIds(s);
    case ClearDone =>
      ClearIds(s);
      FewerIdsStayUnique(s, Step(s, c));
    case ClearAll =>
      ClearIds(s);
      FewerIdsStayUnique(s, Step(s, c));
    case Finish(id, outcome, now) =>
      ProcessIds(s, id, outcome, now);
    case Restart =>
      ReloadKeepsUnique(s);
  }

  /** With fresh ids, no reachable registry holds an id twice: the active
      table is a dictionary, and no item is queued, active or in the history
      at once. */
  lemma {:induction false} RunKeepsUnique(s: State, cs: seq<Command>)
    requires Unique(s) && FreshIds(s, cs)
    ensures Unique(Run(s, cs))
    decreases |cs|
  {
    if cs != [] {
      StepKeepsUnique(s, cs[0]);
      RunKeepsUnique(Step(s, cs[0]), cs[1..]);
    }
  }

  /** From a fresh start with fresh ids, no id is queued and active at once. */
  lemma NeverQueuedAndActive(file: Option<Snapshot>, cs: seq<Command>)
    requires file.Some? ==> Unique(Load(file))
    requires FreshIds(Load(file), cs)
    ensures
      var r := Run(Load(file), cs);
      Wf(r) && forall i, j :: 0 <= i < |r.queue| && 0 <= j < |r.active| ==> r.queue[i].id != r.active[j].id
  {
    RunKeepsUnique(Load(file), cs);
    UniqueSeparates(Run(Load(file), cs));
  }
}

=== FILE: Items.dfy ===
/** Download items: the records that the download manager moves between its
    queue, its table of active downloads and its history, and the sequence
    operations the manager performs on them. */
module Items {
  import opened Wrappers

  /** The `status` field of an item. */
  datatype Status = Queued | Downloading | Paused | Completed | Error

  /** The options captured when an item is enqueued: the format (`video` or
      `audio`), the quality selector and the destination directory. */
  datatype Options = Options(format: string, quality: string, location: string)

  /** One download record. `filePath` and `completedAt` are present only once
      the item has been completed. */
  datatype Item = Item(
    id: string,
    url: string,
    options: Options,
    status: Status,
    progress: int,
    filePath: Option<string>,
    completedAt: Option<real>)

  /** The record `add_download` creates. */
  function NewItem(id: string, url: string, options: Options): Item {
    Item(id, url, options, Queued, 0, None, None)
  }

  /** The ids of a sequence of items, in order. */
  function Ids(s: seq<Item>): seq<string> {
    seq(|s|, k requires 0 <= k < |s| => s[k].id)
  }

  /** No id occurs twice; the keys of a dictionary have this property. */
  predicate DistinctIds(s: seq<Item>) {
    forall i, j :: 0 <= i < j < |s| ==> s[i].id != s[j].id
  }

  /** The position of the first item with this id, or |s| when there is none. */
  function IndexOf(s: seq<Item>, id: string): (i: nat)
    ensures i <= |s|
    ensures i < |s| ==> s[i].id == id
    ensures forall k :: 0 <= k < i ==> s[k].id != id
    decreases |s|
  {
    if s == [] then 0
    else if s[0].id == id then 0
    else 1 + IndexOf(s[1..], id)
  }

  /** The position of the first paused item with this id, or |s| when there is none. */
  function PausedIndexOf(s: seq<Item>, id: string): (i: nat)
    ensures i <= |s|
    ensures i < |s| ==> s[i].id == id && s[i].status == Paused
    ensures forall k :: 0 <= k < i ==> !(s[k].id == id && s[k].status == Paused)
    decreases |s|
  {
    if s == [] then 0
    else if s[0].id == id && s[0].status == Paused then 0
    else 1 + PausedIndexOf(s[1..], id)
  }

  /** Dictionary lookup: the entry stored under `id`, if any. */
  function Lookup(s: seq<Item>, id: string): Option<Item> {
    var i := IndexOf(s, id);
    if i < |s| then Some(s[i]) else None
  }

  /** The sequence without its element at position i. */
  function RemoveAt(s: seq<Item>, i: nat): seq<Item>
    requires i < |s|
  {
    s[..i] + s[i + 1..]
  }

  /** Dictionary assignment `table[item.id] = item` on an insertion-ordered
      dictionary: an existing key keeps its position and gets the new value,
      a new key goes last. */
  function Put(s: seq<Item>, item: Item): seq<Item> {
    var j := IndexOf(s, item.id);
    if j < |s| then s[j := item] else s + [item]
  }

  /** After assignment the id maps to the new item and every other id to
      what it mapped to before; an existing key keeps its place, a new key
      goes last, and keys stay distinct. */
  lemma PutSpec(s: seq<Item>, item: Item)
    ensures var r := Put(s, item);
      && Lookup(r, item.id) == Some(item)
      && (forall id :: id != item.id ==> Lookup(r, id) == Lookup(s, id))
      && Ids(r) == (if item.id in Ids(s) then Ids(s) else Ids(s) + [item.id])
      && (item.id !in Ids(s) ==> r == s + [item])
      && (DistinctIds(s) ==> DistinctIds(r))
  {
    IndexOfFinds(s, item.id);
    if IndexOf(s, item.id) < |s| {
      PutAtKey(s, item);
    } else {
      PutNewKey(s, item);
    }
  }

  /** The keys after assignment: unchanged for an existing key, one more at
      the end for a new one. */
  lemma PutIds(s: seq<Item>, item: Item)
    ensures Ids(Put(s, item)) == if item.id in Ids(s) then Ids(s) else Ids(s) + [item.id]
  {
    PutSpec(s, item);
  }

  /** Assignment to a key already present overwrites its entry in place. */
  lemma PutAtKey(s: seq<Item>, item: Item)
    requires IndexOf(s, item.id) < |s|
    ensures var r := Put(s, item);
      && Lookup(r, item.id) == Some(item)
      && (forall id :: id != item.id ==> Lookup(r, id) == Lookup(s, id))
      && Ids(r) == Ids(s)
      && (DistinctIds(s) ==> DistinctIds(r))
  {
    var j := IndexOf(s, item.id);
    var r := s[j := item];
    assert Ids(s)[j] == item.id;
    assert Ids(r) == Ids(s);
    forall id ensures IndexOf(r, id) == IndexOf(s, id) {
      IndexOfSameIds(r, s, id);
    }
  }

  /** Assignment to a new key appends the entry. */
  lemma PutNewKey(s: seq<Item>, item: Item)
    requires IndexOf(s, item.id) == |s|
    ensures var r := Put(s, item);
      && r == s + [item]
      && Lookup(r, item.id) == Some(item)
      && (forall id :: id != item.id ==> Lookup(r, id) == Lookup(s, id))
      && Ids(r) == Ids(s) + [item.id]
      && (DistinctIds(s) ==> DistinctIds(r))
  {
    var r := s + [item];
    assert Put(s, item) == r;
    AppendLookups(s, item);
    IdsAppend(s, [item]);
    if DistinctIds(s) {
      AppendFreshDistinct(s, item);
    }
  }

  /** Appending an entry with a new key adds that key and keeps the others. */
  lemma AppendLookups(s: seq<Item>, item: Item)
    requires IndexOf(s, item.id) == |s|
    ensures Lookup(s + [item], item.id) == Some(item)
    ensures forall id :: id != item.id ==> Lookup(s + [item], id) == Lookup(s, id)
  {
    var r := s + [item];
    IndexOfAppend(s, item, item.id);
    forall id | id != item.id ensures Lookup(r, id) == Lookup(s, id) {
      IndexOfAppend(s, item, id);
      assert IndexOf(s, id) < |s| ==> r[IndexOf(s, id)] == s[IndexOf(s, id)];
    }
  }

  /** Appending an item whose id is absent keeps ids distinct. */
  lemma AppendFreshDistinct(s: seq<Item>, item: Item)
    requires DistinctIds(s)
    requires forall k :: 0 <= k < |s| ==> s[k].id != item.id
    ensures DistinctIds(s + [item])
  {
    var r := s + [item];
    forall i, j | 0 <= i < j < |r| ensures r[i].id != r[j].id {
      assert r[i] == s[i];
      if j < |s| { assert r[j] == s[j]; }
    }
  }

  /** Assignment brings in no element but the one assigned. */
  lemma PutMembers(s: seq<Item>, item: Item)
    ensures forall x :: x in Put(s, item) ==> x == item || x in s
  {
  }

  /** The conditions that pin down IndexOf. */
  lemma IndexOfIs(s: seq<Item>, id: string, i: nat)
    requires i <= |s| && (i < |s| ==> s[i].id == id)
    requires forall k :: 0 <= k < i ==> s[k].id != id
    ensures IndexOf(s, id) == i
  {
  }

  /** Deleting the entry at j leaves every other key's entry as it was. */
  lemma LookupRemoveAt(s: seq<Item>, j: nat)
    requires j < |s|
    ensures forall x :: x != s[j].id ==> Lookup(RemoveAt(s, j), x) == Lookup(s, x)
  {
    var r := RemoveAt(s, j);
    forall x | x != s[j].id ensures Lookup(r, x) == Lookup(s, x) {
      var i := IndexOf(s, x);
      if i < j {
        IndexOfIs(r, x, i);
      } else if i < |s| {
        assert r[i - 1] == s[i];
        forall k | 0 <= k < i - 1 ensures r[k].id != x {
          if k >= j { assert r[k] == s[k + 1]; }
        }
        IndexOfIs(r, x, i - 1);
      } else {
        forall k | 0 <= k < |r| ensures r[k].id != x {
          if k >= j { assert r[k] == s[k + 1]; }
        }
        IndexOfIs(r, x, |r|);
      }
    }
  }

  /** Overwriting the entry at j with one of the same key leaves every other
      key's entry as it was. */
  lemma LookupUpdate(s: seq<Item>, j: nat, v: Item)
    requires j < |s| && v.id == s[j].id
    ensures forall x :: x != s[j].id ==> Lookup(s[j := v], x) == Lookup(s, x)
  {
    IdsUpdate(s, j, v);
    forall x | x != s[j].id ensures Lookup(s[j := v], x) == Lookup(s, x) {
      IndexOfSameIds(s[j := v], s, x);
    }
  }

  /** IndexOf depends only on the ids of the sequence. */
  lemma IndexOfSameIds(r: seq<Item>, s: seq<Item>, id: string)
    requires Ids(r) == Ids(s)
    ensures IndexOf(r, id) == IndexOf(s, id)
  {
    assert |r| == |Ids(r)| == |Ids(s)| == |s|;
    forall k | 0 <= k < |r| ensures r[k].id == s[k].id {
      assert Ids(r)[k] == Ids(s)[k];
    }
  }

  /** Appending an item does not move the ids already present. */
  lemma IndexOfAppend(s: seq<Item>, item: Item, id: string)
    ensures IndexOf(s + [item], id) == if IndexOf(s, id) < |s| then IndexOf(s, id)
                                       else if item.id == id then |s| else |s| + 1
  {
    var r := s + [item];
    assert r[|s|] == item;
    assert forall k :: 0 <= k < |s| ==> r[k] == s[k];
  }

  /** An id absent from a prefix is found past it. */
  lemma IndexOfConcat(a: seq<Item>, b: seq<Item>, id: string)
    requires id !in Ids(a)
    ensures IndexOf(a + b, id) == |a| + IndexOf(b, id)
  {
    forall k | 0 <= k < |a| ensures a[k].id != id {
      assert Ids(a)[k] == a[k].id;
    }
    assert forall k :: 0 <= k < |a| ==> (a + b)[k] == a[k];
    assert forall k :: 0 <= k < |b| ==> (a + b)[|a| + k] == b[k];
  }

  /** The ids of a concatenation. */
  lemma IdsAppend(a: seq<Item>, b: seq<Item>)
    ensures Ids(a + b) == Ids(a) + Ids(b)
  {
  }

  /** Removing one element removes exactly its id from the id multiset. */
  lemma IdsRemoveAt(s: seq<Item>, i: nat)
    requires i < |s|
    ensures multiset(Ids(RemoveAt(s, i))) == multiset(Ids(s)) - multiset{s[i].id}
  {
    assert Ids(s) == Ids(s[..i]) + [s[i].id] + Ids(s[i + 1..]);
    assert Ids(RemoveAt(s, i)) == Ids(s[..i]) + Ids(s[i + 1..]);
  }

  /** Overwriting an element with one of the same id keeps the ids. */
  lemma IdsUpdate(s: seq<Item>, i: nat, x: Item)
    requires i < |s| && x.id == s[i].id
    ensures Ids(s[i := x]) == Ids(s)
  {
  }

  /** An id occurs in a sequence exactly when IndexOf finds it. */
  lemma IndexOfFinds(s: seq<Item>, id: string)
    ensures (IndexOf(s, id) < |s|) == (id in Ids(s))
  {
    var i := IndexOf(s, id);
    if i < |s| { assert Ids(s)[i] == id; }
    if id in Ids(s) {
      var k :| 0 <= k < |s| && Ids(s)[k] == id;
      assert s[k].id == id;
    }
  }

  /** A sequence whose id multiset has no repeated element has distinct ids. */
  lemma DistinctFromMultiset(s: seq<Item>)
    requires forall id :: multiset(Ids(s))[id] <= 1
    ensures DistinctIds(s)
  {
    forall i, j | 0 <= i < j < |s| ensures s[i].id != s[j].id {
      var x := Ids(s);
      assert x == x[..i] + [x[i]] + x[i + 1..j] + [x[j]] + x[j + 1..];
      assert x[i] == x[j] ==> multiset(x)[x[i]] >= 2;
    }
  }
}

=== FILE: Manager.dfy ===
/** `DownloadManager`: the object that owns the queue, the active table and
    the history, changes them in place and writes the state document after
    every successful change. Each method is proved against the operation of
    the same name in module Registry. */
module Manager {
  import opened Wrappers
  import opened Items
  import Registry

  class DownloadManager {
    /** The FIFO queue of pending or paused items (`download_queue`). */
    var queue: seq<Item>
    /** The active-downloads dictionary in insertion order (`active_downloads`). */
    var active: seq<Item>
    /** The completed items (`download_history`). */
    var history: seq<Item>
    /** The content of the state file: None while there is no file. */
    var stored: Option<Registry.Snapshot>

    /** The registry value the three containers hold. */
    function State(): Registry.State
      reads this
    {
      Registry.State(queue, active, history)
    }

    /** The active table has one entry per id, as a dictionary does. */
    ghost predicate Valid()
      reads this
    {
      DistinctIds(active)
    }

    /** The state file holds the document of the current state. */
    ghost predicate Persisted()
      reads this
    {
      stored == Some(Registry.Save(State()))
    }

    /** `__init__`: empty containers, then `load_state` from the file given. */
    constructor (file: Option<Registry.Snapshot>)
      ensures Valid()
      ensures State() == Registry.Load(file)
      ensures stored == file
    {
      queue, active, history := [], [], [];
      stored := file;
      new;
      LoadState();
    }

    /** `save_state`: write the queue and the last 50 history entries. */
    method SaveState()
      modifies this`stored
      ensures Persisted()
    {
      stored := Some(Registry.Snapshot(queue, Registry.Recent(history)));
    }

    /** `load_state`: when the file exists, take its queue and its history;
        the active table is left as it is. */
    method LoadState()
      modifies this`queue, this`history
      ensures stored.Some? ==> queue == stored.value.queue && history == stored.value.history
      ensures stored.None? ==> queue == old(queue) && history == old(history)
    {
      if stored.Some? {
        queue := stored.value.queue;
        history := stored.value.history;
      }
    }

    /** The search loop over the queue in `start_download` and `remove_download`. */
    method QueueIndex(id: string) returns (i: nat)
      ensures i == IndexOf(queue, id)
    {
      i := 0;
      while i < |queue| && queue[i].id != id
        invariant i <= |queue|
        invariant forall k :: 0 <= k < i ==> queue[k].id != id
      {
        i := i + 1;
      }
    }

    /** The search loop over the queue in `resume_download`. */
    method PausedIndex(id: string) returns (i: nat)
      ensures i == PausedIndexOf(queue, id)
    {
      i := 0;
      while i < |queue| && !(queue[i].id == id && queue[i].status == Paused)
        invariant i <= |queue|
        invariant forall k :: 0 <= k < i ==> !(queue[k].id == id && queue[k].status == Paused)
      {
        i := i + 1;
      }
    }

    /** `add_download`: the id is the URL, an underscore and the text of the
        clock reading; the new item is queued at the tail and saved. */
    method AddDownload(url: string, options: Options, stamp: string) returns (id: string)
      requires Valid()
      modifies this
      ensures Valid()
      ensures id == url + "_" + stamp
      ensures queue == old(queue) + [NewItem(id, url, options)]
      ensures active == old(active) && history == old(history)
      ensures State() == Registry.Add(old(State()), id, url, options)
      ensures Persisted()
    {
      id := url + "_" + stamp;
      queue := queue + [NewItem(id, url, options)];
      SaveState();
    }

    /** `start_download`. */
    method StartDownload(id: string) returns (r: Option<Item>)
      requires Valid()
      modifies this
      ensures Valid()
      ensures (State(), r) == Registry.Start(old(State()), id)
      ensures if r.Some? then Persisted() else stored == old(stored)
    {
      var i := QueueIndex(id);
      if i == |queue| {
        return None;
      }
      var item := queue[i].(status := Downloading);
      PutSpec(active, item);
      active := Put(active, item);
      queue := RemoveAt(queue, i);
      SaveState();
      r := Some(item);
    }

    /** `pause_download`. */
    method PauseDownload(id: string) returns (ok: bool)
      requires Valid()
      modifies this
      ensures Valid()
      ensures (State(), ok) == Registry.Pause(old(State()), id)
      ensures if ok then Persisted() else stored == old(stored)
    {
      var j := IndexOf(active, id);
      if j == |active| {
        return false;
      }
      Registry.DistinctRemoveAt(active, j);
      queue := [active[j].(status := Paused)] + queue;
      active := RemoveAt(active, j);
      SaveState();
      ok := true;
    }

    /** `resume_download`: flip the paused item to `queued`, save, then start it. */
    method ResumeDownload(id: string) returns (r: Option<Item>)
      requires Valid()
      modifies this
      ensures Valid()
      ensures (State(), r) == Registry.Resume(old(State()), id)
      ensures if r.Some? then Persisted() else stored == old(stored)
    {
      var i := PausedIndex(id);
      if i == |queue| {
        return None;
      }
      queue := queue[i := queue[i].(status := Queued)];
      SaveState();
      assert queue[i].id == id;
      r := StartDownload(id);
    }

    /** `complete_download`: `now` is the clock reading stored as `completed_at`. */
    method CompleteDownload(id: string, path: string, now: real) returns (ok: bool)
      requires Valid()
      modifies this
      ensures Valid()
      ensures (State(), ok) == Registry.Complete(old(State()), id, path, now)
      ensures if ok then Persisted() else stored == old(stored)
    {
      var j := IndexOf(active, id);
      if j == |active| {
        return false;
      }
      var item := active[j].(status := Completed, filePath := Some(path), completedAt := Some(now));
      history := history + [item];
      Registry.DistinctRemoveAt(active, j);
      active := RemoveAt(active, j);
      SaveState();
      ok := true;
    }

    /** `remove_download`. */
    method RemoveDownload(id: string) returns (ok: bool)
      requires Valid()
      modifies this
      ensures Valid()
      ensures (State(), ok) == Registry.Remove(old(State()), id)
      ensures if ok then Persisted() else stored == old(stored)
    {
      var j := IndexOf(active, id);
      if j < |active| {
        Registry.DistinctRemoveAt(active, j);
        active := RemoveAt(active, j);
        SaveState();
        return true;
      }
      var i := QueueIndex(id);
      if i < |queue| {
        queue := RemoveAt(queue, i);
        SaveState();
        return true;
      }
      ok := false;
    }
  }
}

=== FILE: Queue.dfy ===
/** The queue-level commands of the downloader window that only read or
    change the registry: start all, pause all, clear completed, clear
    history, the auto-start after adding an item, the worker's selection
    rule, and what happens to an item once its transfer has ended. */
module Queue {
  import opened Wrappers
  import opened Items
  import opened Registry

  /** The number of downloads the window lets run at once. */
  const MaxActive: int := 3

  // ---------------------------------------------------------------------
  // Adding with auto-start
  // ---------------------------------------------------------------------

  /** What `add_to_queue` does to the registry once the URL is accepted:
      add the item, then start it when fewer than MaxActive items are active. */
  function Enqueue(s: State, url: string, options: Options, id: string): State {
    var added := Add(s, id, url, options);
    if |added.active| < MaxActive then Start(added, id).0 else added
  }

  /** Starting a single item makes the active table at most one entry longer. */
  lemma StartGrowsByOne(s: State, id: string)
    ensures |Start(s, id).0.active| <= |s.active| + 1
  {
    var i := IndexOf(s.queue, id);
    if i < |s.queue| {
      var a' := Put(s.active, s.queue[i].(status := Downloading));
      PutSpec(s.active, s.queue[i].(status := Downloading));
      assert |a'| == |Ids(a')| && |s.active| == |Ids(s.active)|;
    }
  }

  /** The auto-start never takes the active table above MaxActive. */
  lemma EnqueueRespectsLimit(s: State, url: string, options: Options, id: string)
    requires |s.active| <= MaxActive
    ensures |Enqueue(s, url, options, id).active| <= MaxActive
  {
    StartGrowsByOne(Add(s, id, url, options), id);
  }

  /** With a fresh id, the new item is started and goes last in the active
      table when fewer than MaxActive items are active, and otherwise waits
      at the queue tail; ids stay unique. */
  lemma EnqueueFresh(s: State, url: string, options: Options, id: string)
    requires Unique(s) && id !in AllIds(s)
    ensures Unique(Enqueue(s, url, options, id))
    ensures |s.active| < MaxActive ==>
      Enqueue(s, url, options, id) ==
        State(s.queue, s.active + [NewItem(id, url, options).(status := Downloading)], s.history)
    ensures |s.active| >= MaxActive ==>
      Enqueue(s, url, options, id) == State(s.queue + [NewItem(id, url, options)], s.active, s.history)
  {
    var added := Add(s, id, url, options);
    AddIds(s, id, url, options);
    FreshIdStaysUnique(s, added, id);
    assert id !in Ids(s.queue);
    IndexOfConcat(s.queue, [NewItem(id, url, options)], id);
    assert Ids(added.queue)[|s.queue|] == id;
    StartMovesQueuedItem(added, id);
    assert RemoveAt(added.queue, |s.queue|) == s.queue;
  }

  // ---------------------------------------------------------------------
  // Start all
  // ---------------------------------------------------------------------

  /** The loop of `start_all_downloads` over a copy of the queue: it stops once
      `count` reaches MaxActive minus the current number of active items, and
      starts every visited item whose status is `queued`. */
  function StartAllFrom(s: State, items: seq<Item>, count: int): State
    decreases |items|
  {
    if items == [] || count >= MaxActive - |s.active| then s
    else if items[0].status == Queued then StartAllFrom(Start(s, items[0].id).0, items[1..], count + 1)
    else StartAllFrom(s, items[1..], count)
  }

  /** `start_all_downloads`. */
  function StartAll(s: State): State {
    StartAllFrom(s, s.queue, 0)
  }

  /** The number of items with status `queued`. */
  function QueuedCount(q: seq<Item>): nat
    decreases |q|
  {
    if q == [] then 0 else (if q[0].status == Queued then 1 else 0) + QueuedCount(q[1..])
  }

  /** The first n items with status `queued`, in queue order, now `downloading`. */
  function Started(q: seq<Item>, n: nat): seq<Item>
    decreases |q|
  {
    if q == [] || n == 0 then []
    else if q[0].status == Queued then [q[0].(status := Downloading)] + Started(q[1..], n - 1)
    else Started(q[1..], n)
  }

  /** The queue without its first n items with status `queued`. */
  function Left(q: seq<Item>, n: nat): seq<Item>
    decreases |q|
  {
    if q == [] || n == 0 then q
    else if q[0].status == Queued then Left(q[1..], n - 1)
    else [q[0]] + Left(q[1..], n)
  }

  /** How many items the loop can start when `gap` is MaxActive minus the
      active count: each start adds one to `count` and one to the active
      count, so the gap closes two at a time. */
  function Quota(gap: int): nat {
    if gap <= 0 then 0 else (gap + 1) / 2
  }

  function Min(a: nat, b: nat): nat {
    if a <= b then a else b
  }

  /** However the ids are laid out, start-all never takes an active table of
      at most MaxActive entries above MaxActive. */
  lemma {:induction false} StartAllFromRespectsLimit(s: State, items: seq<Item>, count: int)
    requires 0 <= count && |s.active| <= MaxActive
    ensures |StartAllFrom(s, items, count).active| <= MaxActive
    decreases |items|
  {
    if items == [] || count >= MaxActive - |s.active| {
    } else if items[0].status == Queued {
      StartGrowsByOne(s, items[0].id);
      StartAllFromRespectsLimit(Start(s, items[0].id).0, items[1..], count + 1);
    } else {
      StartAllFromRespectsLimit(s, items[1..], count);
    }
  }

  lemma StartAllRespectsLimit(s: State)
    requires |s.active| <= MaxActive
    ensures |StartAll(s).active| <= MaxActive
  {
    StartAllFromRespectsLimit(s, s.queue, 0);
  }

  /** Starting the first unvisited item of a registry with unique ids takes
      it out from behind the visited ones and puts it last in the active table. */
  lemma StartNextUnvisited(kept: seq<Item>, items: seq<Item>, a: seq<Item>, h: seq<Item>)
    requires Unique(State(kept + items, a, h)) && items != []
    ensures
      var s := State(kept + items, a, h);
      var r := State(kept + items[1..], a + [items[0].(status := Downloading)], h);
      Start(s, items[0].id).0 == r && Unique(r)
  {
    var s := State(kept + items, a, h);
    var x := items[0];
    UniqueSeparates(s);
    assert s.queue[|kept|] == x;
    assert x.id !in Ids(kept) by {
      forall k | 0 <= k < |kept| ensures Ids(kept)[k] != x.id {
        assert s.queue[k] == kept[k];
      }
    }
    assert x.id !in Ids(a);
    IndexOfConcat(kept, items, x.id);
    assert RemoveAt(kept + items, |kept|) == kept + items[1..];
    StartIds(s, x.id);
    FewerIdsStayUnique(s, Start(s, x.id).0);
  }

  lemma QuotaStep(gap: int)
    requires gap > 0
    ensures Quota(gap - 2) == Quota(gap) - 1
  {
  }

  /** The closed form of the start-all loop from a point where `kept` are
      the visited items still queued and `items` the ones not yet visited:
      the loop ends having started the first n queued items of `items`. */
  ghost predicate ClosedForm(kept: seq<Item>, items: seq<Item>, a: seq<Item>, h: seq<Item>, count: int) {
    var n := Min(QueuedCount(items), Quota(MaxActive - |a| - count));
    StartAllFrom(State(kept + items, a, h), items, count) == State(kept + Left(items, n), a + Started(items, n), h)
  }

  /** The loop invariant of start-all holds in closed form. */
  lemma {:induction false} StartAllFromClosedForm(
    kept: seq<Item>, items: seq<Item>, a: seq<Item>, h: seq<Item>, count: int)
    requires Unique(State(kept + items, a, h))
    ensures ClosedForm(kept, items, a, h, count)
    decreases |items|
  {
    if items == [] {
      assert kept + items == kept;
    } else if count >= MaxActive - |a| {
    } else if items[0].status == Queued {
      StartNextUnvisited(kept, items, a, h);
      StartAllFromClosedForm(kept, items[1..], a + [items[0].(status := Downloading)], h, count + 1);
      ClosedFormQueued(kept, items, a, h, count);
    } else {
      assert kept + items == (kept + [items[0]]) + items[1..];
      StartAllFromClosedForm(kept + [items[0]], items[1..], a, h, count);
      ClosedFormSkipped(kept, items, a, h, count);
    }
  }

  /** The inductive step of the closed form when the visited item is started. */
  lemma ClosedFormQueued(kept: seq<Item>, items: seq<Item>, a: seq<Item>, h: seq<Item>, count: int)
    requires Unique(State(kept + items, a, h))
    requires items != [] && count < MaxActive - |a| && items[0].status == Queued
    requires ClosedForm(kept, items[1..], a + [items[0].(status := Downloading)], h, count + 1)
    ensures ClosedForm(kept, items, a, h, count)
  {
    var s := State(kept + items, a, h);
    var n := Min(QueuedCount(items), Quota(MaxActive - |a| - count));
    var r := State(kept + items[1..], a + [items[0].(status := Downloading)], h);
    StartNextUnvisited(kept, items, a, h);
    assert StartAllFrom(s, items, count) == StartAllFrom(r, items[1..], count + 1);
    QueuedStep(items, a, count, n);
  }

  /** The inductive step of the closed form when the visited item is skipped. */
  lemma ClosedFormSkipped(kept: seq<Item>, items: seq<Item>, a: seq<Item>, h: seq<Item>, count: int)
    requires items != [] && count < MaxActive - |a| && items[0].status != Queued
    requires ClosedForm(kept + [items[0]], items[1..], a, h, count)
    ensures ClosedForm(kept, items, a, h, count)
  {
    var s := State(kept + items, a, h);
    var n := Min(QueuedCount(items), Quota(MaxActive - |a| - count));
    assert kept + items == (kept + [items[0]]) + items[1..];
    assert StartAllFrom(s, items, count) == StartAllFrom(s, items[1..], count);
    SkippedStep(items, a, count, n);
    assert kept + Left(items, n) == (kept + [items[0]]) + Left(items[1..], n);
  }

  /** One start: one fewer queued item to start, gap closed by two. */
  lemma QueuedStep(items: seq<Item>, a: seq<Item>, count: int, n: nat)
    requires items != [] && items[0].status == Queued && count < MaxActive - |a|
    requires n == Min(QueuedCount(items), Quota(MaxActive - |a| - count))
    ensures var x' := items[0].(status := Downloading);
      && n > 0
      && n - 1 == Min(QueuedCount(items[1..]), Quota(MaxActive - |a + [x']| - (count + 1)))
      && Left(items, n) == Left(items[1..], n - 1)
      && a + [x'] + Started(items[1..], n - 1) == a + Started(items, n)
  {
    QuotaStep(MaxActive - |a| - count);
  }

  /** One skipped item: same number left to start. */
  lemma SkippedStep(items: seq<Item>, a: seq<Item>, count: int, n: nat)
    requires items != [] && items[0].status != Queued && count < MaxActive - |a|
    requires n == Min(QueuedCount(items), Quota(MaxActive - |a| - count))
    ensures n == Min(QueuedCount(items[1..]), Quota(MaxActive - |a| - count))
    ensures Left(items, n) == [items[0]] + Left(items[1..], n)
    ensures Started(items, n) == Started(items[1..], n)
  {
  }

  /** With unique ids, start-all starts exactly the first
      min(queued, Quota(MaxActive - active)) items with status `queued`, in
      queue order, skipping paused ones; they go last in the active table.
      With no item active that is 2 items, not 3. */
  lemma StartAllClosedForm(s: State)
    requires Unique(s)
    ensures
      var n := Min(QueuedCount(s.queue), Quota(MaxActive - |s.active|));
      StartAll(s) == State(Left(s.queue, n), s.active + Started(s.queue, n), s.history)
    ensures |s.active| == 0 ==> Quota(MaxActive - |s.active|) == 2
  {
    assert [] + s.queue == s.queue;
    StartAllFromClosedForm([], s.queue, s.active, s.history, 0);
  }

  /** `Started` holds min(n, queued) items, all `downloading`. */
  lemma {:induction false} StartedSize(q: seq<Item>, n: nat)
    ensures |Started(q, n)| == Min(n, QueuedCount(q))
    ensures forall k :: 0 <= k < |Started(q, n)| ==> Started(q, n)[k].status == Downloading
    decreases |q|
  {
    if q != [] && n != 0 {
      if q[0].status == Queued {
        StartedSize(q[1..], n - 1);
      } else {
        StartedSize(q[1..], n);
      }
    }
  }

  /** `Started` and `Left` split the queue: every id goes to exactly one side. */
  ghost predicate Splits(q: seq<Item>, n: nat) {
    multiset(Ids(Started(q, n))) + multiset(Ids(Left(q, n))) == multiset(Ids(q))
  }

  lemma {:induction false} StartedLeftSplit(q: seq<Item>, n: nat)
    ensures Splits(q, n)
    decreases |q|
  {
    if q != [] && n != 0 {
      if q[0].status == Queued {
        StartedLeftSplit(q[1..], n - 1);
        SplitQueued(q, n);
      } else {
        StartedLeftSplit(q[1..], n);
        SplitSkipped(q, n);
      }
    }
  }

  lemma SplitQueued(q: seq<Item>, n: nat)
    requires q != [] && n != 0 && q[0].status == Queued && Splits(q[1..], n - 1)
    ensures Splits(q, n)
  {
    var x := q[0];
    assert Started(q, n) == [x.(status := Downloading)] + Started(q[1..], n - 1);
    IdsCons(x.(status := Downloading), Started(q[1..], n - 1));
    assert Left(q, n) == Left(q[1..], n - 1);
    assert q == [x] + q[1..];
    IdsCons(x, q[1..]);
    OneMoreOnLeft(x.id, Ids(Started(q[1..], n - 1)), Ids(Left(q[1..], n - 1)), Ids(q[1..]));
  }

  lemma SplitSkipped(q: seq<Item>, n: nat)
    requires q != [] && n != 0 && q[0].status != Queued && Splits(q[1..], n)
    ensures Splits(q, n)
  {
    var x := q[0];
    assert Started(q, n) == Started(q[1..], n);
    assert Left(q, n) == [x] + Left(q[1..], n);
    IdsCons(x, Left(q[1..], n));
    assert q == [x] + q[1..];
    IdsCons(x, q[1..]);
    OneMoreOnRight(x.id, Ids(Started(q[1..], n)), Ids(Left(q[1..], n)), Ids(q[1..]));
  }

  lemma IdsCons(x: Item, s: seq<Item>)
    ensures Ids([x] + s) == [x.id] + Ids(s)
  {
    IdsAppend([x], s);
  }

  lemma OneMoreOnLeft(y: string, a: seq<string>, b: seq<string>, c: seq<string>)
    requires multiset(a) + multiset(b) == multiset(c)
    ensures multiset([y] + a) + multiset(b) == multiset([y] + c)
  {
    assert forall z :: (multiset([y] + a) + multiset(b))[z] == multiset([y] + c)[z];
  }

  lemma OneMoreOnRight(y: string, a: seq<string>, b: seq<string>, c: seq<string>)
    requires multiset(a) + multiset(b) == multiset(c)
    ensures multiset(a) + multiset([y] + b) == multiset([y] + c)
  {
    assert forall z :: (multiset(a) + multiset([y] + b))[z] == multiset([y] + c)[z];
  }

  // ---------------------------------------------------------------------
  // Pause all
  // ---------------------------------------------------------------------

  /** Each item with status `paused`. */
  function PausedCopies(a: seq<Item>): seq<Item> {
    seq(|a|, k requires 0 <= k < |a| => a[k].(status := Paused))
  }

  /** The sequence in reverse order. */
  function Reversed(s: seq<Item>): (r: seq<Item>)
    ensures |r| == |s|
    decreases |s|
  {
    if s == [] then [] else [s[|s| - 1]] + Reversed(s[..|s| - 1])
  }

  /** `pause_all_downloads`: pausing the active items one after the other,
      each to the queue front, leaves them at the front in reverse of their
      active order. */
  function PauseAll(s: State): State {
    State(Reversed(PausedCopies(s.active)) + s.queue, [], s.history)
  }

  lemma {:induction false} ReversedAt(s: seq<Item>, k: nat)
    requires k < |s|
    ensures Reversed(s)[k] == s[|s| - 1 - k]
    decreases |s|
  {
    if k > 0 {
      ReversedAt(s[..|s| - 1], k - 1);
    }
  }

  /** After pause-all nothing is active, the queue ends with the old queue,
      and before it stand the formerly active items, `paused`, last one first. */
  lemma PauseAllOrder(s: State)
    ensures PauseAll(s).active == []
    ensures PauseAll(s).history == s.history
    ensures |PauseAll(s).queue| == |s.active| + |s.queue|
    ensures PauseAll(s).queue[|s.active|..] == s.queue
    ensures forall k :: 0 <= k < |s.active| ==>
      PauseAll(s).queue[k] == s.active[|s.active| - 1 - k].(status := Paused)
  {
    var p := PausedCopies(s.active);
    forall k | 0 <= k < |s.active|
      ensures PauseAll(s).queue[k] == s.active[|s.active| - 1 - k].(status := Paused)
    {
      ReversedAt(p, k);
    }
  }

  lemma {:induction false} ReversedIds(s: seq<Item>)
    ensures multiset(Ids(Reversed(s))) == multiset(Ids(s))
    decreases |s|
  {
    if s != [] {
      var last := s[|s| - 1];
      ReversedIds(s[..|s| - 1]);
      IdsAppend([last], Reversed(s[..|s| - 1]));
      IdsAppend(s[..|s| - 1], [last]);
      assert s == s[..|s| - 1] + [last];
    }
  }

  /** Pause-all moves items and loses none. */
  lemma PauseAllIds(s: State)
    ensures AllIds(PauseAll(s)) == AllIds(s)
  {
    var p := PausedCopies(s.active);
    assert Ids(p) == Ids(s.active);
    ReversedIds(p);
    IdsAppend(Reversed(p), s.queue);
  }

  // ---------------------------------------------------------------------
  // Clearing the history
  // ---------------------------------------------------------------------

  /** The comprehension of `clear_completed`: the entries whose status is not
      `completed`, in order. */
  function WithoutCompleted(h: seq<Item>): (r: seq<Item>)
    ensures |r| <= |h|
    ensures forall x :: x in r <==> x in h && x.status != Completed
    decreases |h|
  {
    if h == [] then []
    else (if h[0].status != Completed then [h[0]] else []) + WithoutCompleted(h[1..])
  }

  /** `clear_completed`. */
  function ClearCompleted(s: State): State {
    s.(history := WithoutCompleted(s.history))
  }

  /** `clear_history`. */
  function ClearHistory(s: State): State {
    s.(history := [])
  }

  /** Every history entry is `completed`: only completion appends to it. */
  ghost predicate HistoryCompleted(s: State) {
    forall k :: 0 <= k < |s.history| ==> s.history[k].status == Completed
  }

  lemma {:induction false} NothingLeftWhenAllCompleted(h: seq<Item>)
    requires forall k :: 0 <= k < |h| ==> h[k].status == Completed
    ensures WithoutCompleted(h) == []
    decreases |h|
  {
    if h != [] {
      NothingLeftWhenAllCompleted(h[1..]);
    }
  }

  /** While every history entry is `completed`, clearing the completed
      entries empties the history, as clearing the history does. */
  lemma ClearCompletedIsClearHistory(s: State)
    requires HistoryCompleted(s)
    ensures ClearCompleted(s) == ClearHistory(s)
  {
    NothingLeftWhenAllCompleted(s.history);
  }

  lemma ClearIds(s: State)
    ensures AllIds(ClearCompleted(s)) <= AllIds(s)
    ensures AllIds(ClearHistory(s)) <= AllIds(s)
  {
    ClearCompletedIds(s.history);
  }

  lemma {:induction false} ClearCompletedIds(h: seq<Item>)
    ensures multiset(Ids(WithoutCompleted(h))) <= multiset(Ids(h))
    decreases |h|
  {
    if h != [] {
      ClearCompletedIds(h[1..]);
      var head := if h[0].status != Completed then [h[0]] else [];
      IdsAppend(head, WithoutCompleted(h[1..]));
      IdsAppend([h[0]], h[1..]);
      assert h == [h[0]] + h[1..];
    }
  }

  // ---------------------------------------------------------------------
  // The worker
  // ---------------------------------------------------------------------

  /** The ids the worker hands to `process_download` in one pass: the active
      items whose status is `downloading`, in active order. */
  function Selected(active: seq<Item>): (r: seq<string>)
    ensures |r| <= |active|
    ensures forall id :: id in r <==>
      exists k :: 0 <= k < |active| && active[k].id == id && active[k].status == Downloading
    ensures r == [] <==> forall k :: 0 <= k < |active| ==> active[k].status != Downloading
    decreases |active|
  {
    if active == [] then []
    else
      var rest := Selected(active[1..]);
      assert forall k :: 0 <= k < |active| - 1 ==> active[1..][k] == active[k + 1];
      (if active[0].status == Downloading then [active[0].id] else []) + rest
  }

  /** How a transfer ended: saved at a path, or failed. */
  datatype Outcome = Saved(path: string) | Failed

  /** The failure branch of `process_download`: the item's status becomes
      `error` and it stays in the active table. */
  function MarkError(s: State, id: string): State {
    var j := IndexOf(s.active, id);
    if j < |s.active| then s.(active := s.active[j := s.active[j].(status := Error)]) else s
  }

  /** `process_download` once the transfer has ended: nothing happens unless
      the id is active and `downloading`; a saved file completes the item and
      a failure marks it. */
  function Process(s: State, id: string, outcome: Outcome, now: real): State {
    match Lookup(s.active, id)
    case None => s
    case Some(item) =>
      if item.status != Downloading then s
      else
        match outcome
        case Saved(path) => Complete(s, id, path, now).0
        case Failed => MarkError(s, id)
  }

  /** A failed transfer leaves its item in the active table, in place, with
      status `error`, and every other active entry as it was; the queue, the
      history and so the state document do not change, and the worker no
      longer selects the item. */
  lemma FailureStaysActive(s: State, id: string, now: real)
    requires Wf(s)
    requires Lookup(s.active, id).Some? && Lookup(s.active, id).value.status == Downloading
    ensures
      var r := Process(s, id, Failed, now);
      && Ids(r.active) == Ids(s.active)
      && Lookup(r.active, id) == Some(Lookup(s.active, id).value.(status := Error))
      && (forall x :: x != id ==> Lookup(r.active, x) == Lookup(s.active, x))
      && r.queue == s.queue && r.history == s.history
      && Save(r) == Save(s)
      && id !in Selected(r.active)
  {
    var j := IndexOf(s.active, id);
    var r := Process(s, id, Failed, now);
    assert r.active == s.active[j := s.active[j].(status := Error)];
    IdsUpdate(s.active, j, s.active[j].(status := Error));
    IndexOfSameIds(r.active, s.active, id);
    LookupUpdate(s.active, j, s.active[j].(status := Error));
    forall k | 0 <= k < |r.active| && r.active[k].id == id ensures r.active[k].status != Downloading {
      assert k == j;
    }
  }

  /** Marking an error moves no id. */
  lemma MarkErrorIds(s: State, id: string)
    ensures AllIds(MarkError(s, id)) == AllIds(s)
    ensures Wf(s) ==> Wf(MarkError(s, id))
  {
    var j := IndexOf(s.active, id);
    if j < |s.active| {
      IdsUpdate(s.active, j, s.active[j].(status := Error));
    }
  }

  /** One pass of `download_manager_worker`: `process_download` for each
      selected id in turn; `outcome` says how each transfer ends and `now`
      gives the clock reading taken when it is completed. */
  function ProcessAll(s: State, ids: seq<string>, outcome: string -> Outcome, now: string -> real): State
    decreases |ids|
  {
    if ids == [] then s
    else ProcessAll(Process(s, ids[0], outcome(ids[0]), now(ids[0])), ids[1..], outcome, now)
  }

  /** The pass over the snapshot of the active table taken when it begins. */
  function WorkerPass(s: State, outcome: string -> Outcome, now: string -> real): State {
    ProcessAll(s, Selected(s.active), outcome, now)
  }

  /** Processing one id keeps the table a dictionary and leaves every other
      `downloading` entry where it was; none with this id is left. */
  lemma ProcessStep(s: State, id: string, o: Outcome, now: real)
    requires Wf(s)
    ensures Wf(Process(s, id, o, now))
    ensures forall x :: x in Process(s, id, o, now).active && x.status == Downloading ==>
      x in s.active && x.id != id
  {
    var r := Process(s, id, o, now);
    var j := IndexOf(s.active, id);
    if j < |s.active| && s.active[j].status == Downloading {
      match o
      case Saved(path) =>
        DistinctRemoveAt(s.active, j);
        assert r.active == s.active[..j] + s.active[j + 1..];
        forall x | x in r.active ensures x in s.active && x.id != id {
          var k :| 0 <= k < |r.active| && r.active[k] == x;
          if k < j {
            assert x == s.active[k];
          } else {
            assert x == s.active[k + 1];
          }
        }
      case Failed =>
        MarkErrorIds(s, id);
        forall x | x in r.active && x.status == Downloading ensures x in s.active && x.id != id {
          var k :| 0 <= k < |r.active| && r.active[k] == x;
          assert k != j;
          assert x == s.active[k];
        }
    } else {
      forall x | x in r.active && x.status == Downloading ensures x.id != id {
        var k :| 0 <= k < |s.active| && s.active[k] == x;
        assert k != j;
      }
    }
  }

  /** Processing a list of ids that covers every `downloading` entry leaves
      none. */
  lemma {:induction false} ProcessAllSettles(
    s: State, ids: seq<string>, outcome: string -> Outcome, now: string -> real)
    requires Wf(s)
    requires forall x :: x in s.active && x.status == Downloading ==> x.id in ids
    ensures Wf(ProcessAll(s, ids, outcome, now))
    ensures Selected(ProcessAll(s, ids, outcome, now).active) == []
    decreases |ids|
  {
    if ids == [] {
      var r := ProcessAll(s, ids, outcome, now);
      forall k | 0 <= k < |r.active| ensures r.active[k].status != Downloading {
        assert r.active[k] in s.active;
      }
    } else {
      var t := Process(s, ids[0], outcome(ids[0]), now(ids[0]));
      ProcessStep(s, ids[0], outcome(ids[0]), now(ids[0]));
      forall x | x in t.active && x.status == Downloading ensures x.id in ids[1..] {
        assert x.id in ids && x.id != ids[0];
      }
      ProcessAllSettles(t, ids[1..], outcome, now);
    }
  }

  /** After one worker pass no active item is `downloading`: each selected
      transfer has been completed or marked as failed. */
  lemma WorkerPassSettles(s: State, outcome: string -> Outcome, now: string -> real)
    requires Wf(s)
    ensures Wf(WorkerPass(s, outcome, now))
    ensures Selected(WorkerPass(s, outcome, now).active) == []
  {
    forall x | x in s.active && x.status == Downloading ensures x.id in Selected(s.active) {
      var k :| 0 <= k < |s.active| && s.active[k] == x;
    }
    ProcessAllSettles(s, Selected(s.active), outcome, now);
  }
}

=== FILE: Registry.dfy ===
/** The download registry kept by `DownloadManager`, as a pure state machine:
    a FIFO queue of pending or paused items, an insertion-ordered table of
    active items, and a history of completed items. Every operation returns
    the new state together with the value the Python method returns. */
module Registry {
  import opened Wrappers
  import opened Items

  /** The three containers. `active` is the active-downloads dictionary in
      insertion order; its keys are the ids of its items. */
  datatype State = State(queue: seq<Item>, active: seq<Item>, history: seq<Item>)

  /** The persisted state document: the queue and the most recent history
      entries. Active items are not part of it. */
  datatype Snapshot = Snapshot(queue: seq<Item>, history: seq<Item>)

  /** How many history entries the state document keeps. */
  const HistoryKept: nat := 50

  /** The active table is a dictionary: one entry per id. */
  ghost predicate Wf(s: State) {
    DistinctIds(s.active)
  }

  // ---------------------------------------------------------------------
  // Operations
  // ---------------------------------------------------------------------

  /** `add_download`: a new queued item at the queue tail. */
  function Add(s: State, id: string, url: string, options: Options): State {
    s.(queue := s.queue + [NewItem(id, url, options)])
  }

  /** `start_download`: the first queued item with this id moves to the active
      table with status `downloading`. There is no capacity check. */
  function Start(s: State, id: string): (State, Option<Item>) {
    var i := IndexOf(s.queue, id);
    if i == |s.queue| then (s, None)
    else
      var item := s.queue[i].(status := Downloading);
      (s.(queue := RemoveAt(s.queue, i), active := Put(s.active, item)), Some(item))
  }

  /** `pause_download`: an active item goes to the queue front as `paused`. */
  function Pause(s: State, id: string): (State, bool) {
    var j := IndexOf(s.active, id);
    if j == |s.active| then (s, false)
    else
      var item := s.active[j].(status := Paused);
      (s.(queue := [item] + s.queue, active := RemoveAt(s.active, j)), true)
  }

  /** `resume_download`: the first paused queue item with this id becomes
      `queued` again, then `start_download` runs for the id. */
  function Resume(s: State, id: string): (State, Option<Item>) {
    var i := PausedIndexOf(s.queue, id);
    if i == |s.queue| then (s, None)
    else Start(s.(queue := s.queue[i := s.queue[i].(status := Queued)]), id)
  }

  /** `complete_download`: an active item is stamped and appended to history. */
  function Complete(s: State, id: string, path: string, now: real): (State, bool) {
    var j := IndexOf(s.active, id);
    if j == |s.active| then (s, false)
    else
      var item := s.active[j].(status := Completed, filePath := Some(path), completedAt := Some(now));
      (s.(active := RemoveAt(s.active, j), history := s.history + [item]), true)
  }

  /** `remove_download`: delete from the active table, else from the queue. */
  function Remove(s: State, id: string): (State, bool) {
    var j := IndexOf(s.active, id);
    if j < |s.active| then (s.(active := RemoveAt(s.active, j)), true)
    else
      var i := IndexOf(s.queue, id);
      if i < |s.queue| then (s.(queue := RemoveAt(s.queue, i)), true)
      else (s, false)
  }

  // ---------------------------------------------------------------------
  // Persistence
  // ---------------------------------------------------------------------

  /** `history[-50:]`: the last HistoryKept entries. */
  function Recent(h: seq<Item>): seq<Item> {
    if |h| <= HistoryKept then h else h[|h| - HistoryKept..]
  }

  /** The document `save_state` writes. */
  function Save(s: State): Snapshot {
    Snapshot(s.queue, Recent(s.history))
  }

  /** The state after construction: empty containers, then `load_state`
      replaces the queue and the history when a state file exists. */
  function Load(file: Option<Snapshot>): State {
    match file
    case None => State([], [], [])
    case Some(d) => State(d.queue, [], d.history)
  }

  // ---------------------------------------------------------------------
  // Ids
  // ---------------------------------------------------------------------

  /** Every id held anywhere in the registry, with multiplicity. */
  function AllIds(s: State): multiset<string> {
    multiset(Ids(s.queue)) + multiset(Ids(s.active)) + multiset(Ids(s.history))
  }

  /** No id is held twice, whether in one container or in two. */
  ghost predicate Unique(s: State) {
    forall id :: AllIds(s)[id] <= 1
  }

  /** A registry whose ids are unique keeps every container duplicate-free and
      no id is in two containers at once. */
  lemma UniqueSeparates(s: State)
    requires Unique(s)
    ensures Wf(s) && DistinctIds(s.queue) && DistinctIds(s.history)
    ensures forall i, j :: 0 <= i < |s.queue| && 0 <= j < |s.active| ==> s.queue[i].id != s.active[j].id
    ensures forall i, j :: 0 <= i < |s.queue| && 0 <= j < |s.history| ==> s.queue[i].id != s.history[j].id
    ensures forall i, j :: 0 <= i < |s.active| && 0 <= j < |s.history| ==> s.active[i].id != s.history[j].id
  {
    var q, a, h := multiset(Ids(s.queue)), multiset(Ids(s.active)), multiset(Ids(s.history));
    assert forall id :: q[id] + a[id] + h[id] == AllIds(s)[id];
    DistinctFromMultiset(s.queue);
    DistinctFromMultiset(s.active);
    DistinctFromMultiset(s.history);
    forall i, j | 0 <= i < |s.queue| && 0 <= j < |s.active| ensures s.queue[i].id != s.active[j].id {
      assert Ids(s.queue)[i] == s.queue[i].id && Ids(s.active)[j] == s.active[j].id;
      assert q[s.queue[i].id] >= 1 && a[s.active[j].id] >= 1;
    }
    forall i, j | 0 <= i < |s.queue| && 0 <= j < |s.history| ensures s.queue[i].id != s.history[j].id {
      assert Ids(s.queue)[i] == s.queue[i].id && Ids(s.history)[j] == s.history[j].id;
      assert q[s.queue[i].id] >= 1 && h[s.history[j].id] >= 1;
    }
    forall i, j | 0 <= i < |s.active| && 0 <= j < |s.history| ensures s.active[i].id != s.history[j].id {
      assert Ids(s.active)[i] == s.active[i].id && Ids(s.history)[j] == s.history[j].id;
      assert a[s.active[i].id] >= 1 && h[s.history[j].id] >= 1;
    }
  }

  /** Dropping ids keeps them unique. */
  lemma FewerIdsStayUnique(s: State, r: State)
    requires Unique(s) && AllIds(r) <= AllIds(s)
    ensures Unique(r)
  {
    forall id ensures AllIds(r)[id] <= 1 {
      assert AllIds(r)[id] <= AllIds(s)[id];
    }
  }

  /** Adding an id to a registry that does not hold it keeps ids unique. */
  lemma FreshIdStaysUnique(s: State, r: State, id: string)
    requires Unique(s) && id !in AllIds(s) && AllIds(r) == AllIds(s) + multiset{id}
    ensures Unique(r)
  {
  }

  lemma AddIds(s: State, id: string, url: string, options: Options)
    ensures AllIds(Add(s, id, url, options)) == AllIds(s) + multiset{id}
  {
    IdsAppend(s.queue, [NewItem(id, url, options)]);
  }

  lemma StartIds(s: State, id: string)
    ensures AllIds(Start(s, id).0) <= AllIds(s)
    ensures id !in Ids(s.active) ==> AllIds(Start(s, id).0) == AllIds(s)
  {
    var i := IndexOf(s.queue, id);
    if i < |s.queue| {
      var item := s.queue[i].(status := Downloading);
      PutIds(s.active, item);
      assert Start(s, id).0 == State(RemoveAt(s.queue, i), Put(s.active, item), s.history);
      if id in Ids(s.active) {
        RestartedIds(s, i, Put(s.active, item));
      } else {
        MovedIds(s.queue, i, s.active, Put(s.active, item), item);
        assert forall x :: AllIds(Start(s, id).0)[x] == AllIds(s)[x];
      }
    }
  }

  /** Starting an id that is already active drops the queued copy. */
  lemma RestartedIds(s: State, i: nat, a': seq<Item>)
    requires i < |s.queue| && Ids(a') == Ids(s.active)
    ensures AllIds(State(RemoveAt(s.queue, i), a', s.history)) <= AllIds(s)
  {
    IdsRemoveAt(s.queue, i);
  }

  lemma PauseIds(s: State, id: string)
    ensures AllIds(Pause(s, id).0) == AllIds(s)
  {
    var j := IndexOf(s.active, id);
    if j < |s.active| {
      var item := s.active[j].(status := Paused);
      var r := Pause(s, id).0;
      assert r.queue == [item] + s.queue && r.active == RemoveAt(s.active, j) && r.history == s.history;
      IdsAppend([item], s.queue);
      assert Ids([item]) == [id];
      MovedIds(s.active, j, s.queue, r.queue, item);
      assert forall x :: AllIds(r)[x] == AllIds(s)[x];
    }
  }

  /** Moving an element from one container to another keeps the ids overall. */
  lemma MovedIds(a: seq<Item>, j: nat, b: seq<Item>, b': seq<Item>, item: Item)
    requires j < |a| && item.id == a[j].id
    requires multiset(Ids(b')) == multiset(Ids(b)) + multiset{item.id}
    ensures forall x ::
      multiset(Ids(RemoveAt(a, j)))[x] + multiset(Ids(b'))[x] == multiset(Ids(a))[x] + multiset(Ids(b))[x]
  {
    IdsRemoveAt(a, j);
    assert Ids(a)[j] == item.id;
    assert multiset{item.id} <= multiset(Ids(a));
  }

  lemma ResumeIds(s: State, id: string)
    ensures AllIds(Resume(s, id).0) <= AllIds(s)
  {
    var i := PausedIndexOf(s.queue, id);
    if i < |s.queue| {
      var s' := s.(queue := s.queue[i := s.queue[i].(status := Queued)]);
      IdsUpdate(s.queue, i, s.queue[i].(status := Queued));
      assert AllIds(s') == AllIds(s);
      StartIds(s', id);
    }
  }

  lemma CompleteIds(s: State, id: string, path: string, now: real)
    ensures AllIds(Complete(s, id, path, now).0) == AllIds(s)
  {
    var j := IndexOf(s.active, id);
    if j < |s.active| {
      var item := s.active[j].(status := Completed, filePath := Some(path), completedAt := Some(now));
      var r := Complete(s, id, path, now).0;
      assert r.history == s.history + [item] && r.active == RemoveAt(s.active, j) && r.queue == s.queue;
      IdsAppend(s.history, [item]);
      assert Ids([item]) == [id];
      MovedIds(s.active, j, s.history, r.history, item);
      assert forall x :: AllIds(r)[x] == AllIds(s)[x];
    }
  }

  lemma RemoveIds(s: State, id: string)
    ensures Remove(s, id).1 ==> AllIds(Remove(s, id).0) == AllIds(s) - multiset{id}
    ensures !Remove(s, id).1 ==> Remove(s, id).0 == s
  {
    var j := IndexOf(s.active, id);
    if j < |s.active| {
      IdsRemoveAt(s.active, j);
      assert Ids(s.active)[j] == id;
    } else {
      var i := IndexOf(s.queue, id);
      if i < |s.queue| {
        IdsRemoveAt(s.queue, i);
        assert Ids(s.queue)[i] == id;
      }
    }
  }

  /** Removing one element keeps the remaining ids distinct. */
  lemma DistinctRemoveAt(s: seq<Item>, i: nat)
    requires i < |s| && DistinctIds(s)
    ensures DistinctIds(RemoveAt(s, i))
  {
    var r := RemoveAt(s, i);
    forall a, b | 0 <= a < b < |r| ensures r[a].id != r[b].id {
      var a' := if a < i then a else a + 1;
      var b' := if b < i then b else b + 1;
      assert r[a] == s[a'] && r[b] == s[b'];
    }
  }

  /** The operations of `DownloadManager` keep one entry per id in the active table. */
  lemma OperationsKeepWf(s: State, id: string, path: string, now: real)
    requires Wf(s)
    ensures Wf(Start(s, id).0) && Wf(Pause(s, id).0) && Wf(Resume(s, id).0)
    ensures Wf(Complete(s, id, path, now).0) && Wf(Remove(s, id).0)
  {
    StartKeepsWf(s, id);
    var j := IndexOf(s.active, id);
    if j < |s.active| {
      DistinctRemoveAt(s.active, j);
      assert Wf(Pause(s, id).0) && Wf(Complete(s, id, path, now).0) && Wf(Remove(s, id).0);
    }
    var i' := PausedIndexOf(s.queue, id);
    if i' < |s.queue| {
      var s' := s.(queue := s.queue[i' := s.queue[i'].(status := Queued)]);
      StartKeepsWf(s', id);
    }
  }

  /** Starting keeps the active table a dictionary. */
  lemma StartKeepsWf(s: State, id: string)
    requires Wf(s)
    ensures Wf(Start(s, id).0)
  {
    var i := IndexOf(s.queue, id);
    if i < |s.queue| { PutSpec(s.active, s.queue[i].(status := Downloading)); }
  }

  // ---------------------------------------------------------------------
  // Properties of the operations
  // ---------------------------------------------------------------------

  /** Starting moves the item out of the queue into the active table whatever
      the number of active items: there is no capacity check. With unique ids
      the item goes last in the active table and no id is lost or gained. */
  lemma StartMovesQueuedItem(s: State, id: string)
    requires Unique(s)
    ensures Start(s, id).1.Some? <==> id in Ids(s.queue)
    ensures Start(s, id).1.None? ==> Start(s, id).0 == s
    ensures Start(s, id).1.Some? ==>
      var i := IndexOf(s.queue, id);
      var item := s.queue[i].(status := Downloading);
      && Start(s, id).1 == Some(item)
      && Start(s, id).0 == State(RemoveAt(s.queue, i), s.active + [item], s.history)
      && |Start(s, id).0.active| == |s.active| + 1
      && Unique(Start(s, id).0)
  {
    IndexOfFinds(s.queue, id);
    IndexOfFinds(s.active, id);
    var i := IndexOf(s.queue, id);
    if i < |s.queue| {
      UniqueSeparates(s);
      assert id !in Ids(s.active) by {
        forall k | 0 <= k < |s.active| ensures Ids(s.active)[k] != id {
          assert s.queue[i].id != s.active[k].id;
        }
      }
      StartIds(s, id);
      FewerIdsStayUnique(s, Start(s, id).0);
    }
  }

  /** Pausing succeeds exactly for active ids; the item goes to the queue
      front as `paused` and leaves the active table. */
  lemma PauseSpec(s: State, id: string)
    requires Wf(s)
    ensures Pause(s, id).1 <==> id in Ids(s.active)
    ensures !Pause(s, id).1 ==> Pause(s, id).0 == s
    ensures Pause(s, id).1 ==>
      var r := Pause(s, id).0;
      && r.queue[1..] == s.queue
      && r.queue[0] == Lookup(s.active, id).value.(status := Paused)
      && id !in Ids(r.active)
      && |r.active| == |s.active| - 1
      && Ids(r.active) == Ids(RemoveAt(s.active, IndexOf(s.active, id)))
      && (forall x :: x != id ==> Lookup(r.active, x) == Lookup(s.active, x))
      && r.history == s.history
  {
    IndexOfFinds(s.active, id);
    var j := IndexOf(s.active, id);
    if j < |s.active| {
      var r := Pause(s, id).0;
      assert r.queue[1..] == s.queue;
      LookupRemoveAt(s.active, j);
      forall k | 0 <= k < |r.active| ensures Ids(r.active)[k] != id {
        var k' := if k < j then k else k + 1;
        assert r.active[k] == s.active[k'];
      }
    }
  }

  /** Resuming succeeds exactly for ids with a paused queue entry, and then
      the id is active with status `downloading`; no other active entry
      changes. With unique ids the result is the paused record itself, now
      `downloading`, and it is the one entry that leaves the queue. */
  lemma ResumeSpec(s: State, id: string)
    ensures Resume(s, id).1.Some? <==>
      exists k :: 0 <= k < |s.queue| && s.queue[k].id == id && s.queue[k].status == Paused
    ensures Resume(s, id).1.None? ==> Resume(s, id).0 == s
    ensures Resume(s, id).1.Some? ==>
      && Resume(s, id).1.value.id == id
      && Resume(s, id).1.value.status == Downloading
      && Lookup(Resume(s, id).0.active, id) == Resume(s, id).1
      && (forall x :: x != id ==> Lookup(Resume(s, id).0.active, x) == Lookup(s.active, x))
      && Ids(Resume(s, id).0.active) == (if id in Ids(s.active) then Ids(s.active) else Ids(s.active) + [id])
      && Resume(s, id).0.history == s.history
    ensures Unique(s) && Resume(s, id).1.Some? ==>
      var i := PausedIndexOf(s.queue, id);
      && Resume(s, id).1 == Some(s.queue[i].(status := Downloading))
      && Resume(s, id).0.queue == RemoveAt(s.queue, i)
  {
    var i := PausedIndexOf(s.queue, id);
    if i < |s.queue| {
      var s' := s.(queue := s.queue[i := s.queue[i].(status := Queued)]);
      assert s'.queue[i].id == id;
      assert IndexOf(s'.queue, id) <= i;
      var i' := IndexOf(s'.queue, id);
      PutSpec(s.active, s'.queue[i'].(status := Downloading));
      if Unique(s) {
        ResumeUnique(s, id);
      }
    }
  }

  /** With unique ids the paused entry is the first queue entry with its id. */
  lemma ResumeUnique(s: State, id: string)
    requires Unique(s) && PausedIndexOf(s.queue, id) < |s.queue|
    ensures
      var i := PausedIndexOf(s.queue, id);
      var s' := s.(queue := s.queue[i := s.queue[i].(status := Queued)]);
      && IndexOf(s'.queue, id) == i
      && RemoveAt(s'.queue, i) == RemoveAt(s.queue, i)
  {
    UniqueSeparates(s);
    var i := PausedIndexOf(s.queue, id);
    var q' := s.queue[i := s.queue[i].(status := Queued)];
    forall k | 0 <= k < i ensures q'[k].id != id {
      assert s.queue[k].id != s.queue[i].id;
    }
    IndexOfIs(q', id, i);
    assert RemoveAt(q', i) == RemoveAt(s.queue, i);
  }

  /** Pausing an active item and resuming it puts the queue back as it was
      and makes the item active again as `downloading`, now last in the
      active table. Its progress is kept. */
  lemma PauseThenResume(s: State, id: string)
    requires Wf(s) && id in Ids(s.active)
    ensures Pause(s, id).1
    ensures
      var j := IndexOf(s.active, id);
      var back := s.active[j].(status := Downloading);
      Resume(Pause(s, id).0, id) == (State(s.queue, RemoveAt(s.active, j) + [back], s.history), Some(back))
  {
    IndexOfFinds(s.active, id);
    var j := IndexOf(s.active, id);
    var p := Pause(s, id).0;
    assert PausedIndexOf(p.queue, id) == 0;
    var p' := p.(queue := p.queue[0 := p.queue[0].(status := Queued)]);
    assert IndexOf(p'.queue, id) == 0;
    assert RemoveAt(p'.queue, 0) == s.queue;
    var rest := RemoveAt(s.active, j);
    forall k | 0 <= k < |rest| ensures Ids(rest)[k] != id {
      var k' := if k < j then k else k + 1;
      assert rest[k] == s.active[k'];
    }
  }

  /** Completion succeeds exactly for active ids. The stamped item is appended
      to the history, which is not capped in memory, and leaves the active table. */
  lemma CompleteSpec(s: State, id: string, path: string, now: real)
    requires Wf(s)
    ensures Complete(s, id, path, now).1 <==> id in Ids(s.active)
    ensures !Complete(s, id, path, now).1 ==> Complete(s, id, path, now).0 == s
    ensures Complete(s, id, path, now).1 ==>
      var r := Complete(s, id, path, now).0;
      var done := r.history[|s.history|];
      && r.history == s.history + [done]
      && |r.history| == |s.history| + 1
      && done == Lookup(s.active, id).value.(status := Completed, filePath := Some(path), completedAt := Some(now))
      && done.id == id && done.status == Completed
      && done.filePath == Some(path) && done.completedAt == Some(now)
      && id !in Ids(r.active)
      && Ids(r.active) == Ids(RemoveAt(s.active, IndexOf(s.active, id)))
      && (forall x :: x != id ==> Lookup(r.active, x) == Lookup(s.active, x))
      && r.queue == s.queue
  {
    IndexOfFinds(s.active, id);
    var j := IndexOf(s.active, id);
    if j < |s.active| {
      var r := Complete(s, id, path, now).0;
      LookupRemoveAt(s.active, j);
      forall k | 0 <= k < |r.active| ensures Ids(r.active)[k] != id {
        var k' := if k < j then k else k + 1;
        assert r.active[k] == s.active[k'];
      }
    }
  }

  /** Removal looks in the active table first and then in the queue, and never
      touches the history. */
  lemma RemoveSpec(s: State, id: string)
    ensures Remove(s, id).1 <==> id in Ids(s.active) || id in Ids(s.queue)
    ensures Remove(s, id).0.history == s.history
    ensures id in Ids(s.active) ==>
      && Remove(s, id).0.queue == s.queue
      && Ids(Remove(s, id).0.active) == Ids(RemoveAt(s.active, IndexOf(s.active, id)))
    ensures id !in Ids(s.active) ==>
      && Remove(s, id).0.active == s.active
      && (id in Ids(s.queue) ==> Remove(s, id).0.queue == RemoveAt(s.queue, IndexOf(s.queue, id)))
    ensures forall x :: x != id ==> Lookup(Remove(s, id).0.active, x) == Lookup(s.active, x)
    ensures !Remove(s, id).1 ==> Remove(s, id).0 == s
  {
    IndexOfFinds(s.active, id);
    IndexOfFinds(s.queue, id);
    var j := IndexOf(s.active, id);
    if j < |s.active| {
      LookupRemoveAt(s.active, j);
    }
  }

  /** With unique ids, a second removal of the same id fails and changes nothing. */
  lemma RemoveTwice(s: State, id: string)
    requires Unique(s)
    ensures var r := Remove(s, id).0; Remove(r, id) == (r, false)
  {
    var r := Remove(s, id).0;
    RemoveIds(s, id);
    RemoveSpec(s, id);
    if Remove(s, id).1 {
      assert AllIds(r)[id] == 0;
      assert multiset(Ids(r.active))[id] == 0 && multiset(Ids(r.queue))[id] == 0;
    }
    assert id !in Ids(r.active) && id !in Ids(r.queue);
    RemoveSpec(r, id);
  }

  /** Saving then loading gives back the queue and the last 50 history
      entries, never an active item; saving again writes the same document. */
  lemma SnapshotRoundTrip(s: State)
    ensures Load(Some(Save(s))) == State(s.queue, [], Recent(s.history))
    ensures |Save(s).history| == if |s.history| <= HistoryKept then |s.history| else HistoryKept
    ensures s.history == s.history[..|s.history| - |Save(s).history|] + Save(s).history
    ensures Save(Load(Some(Save(s)))) == Save(s)
  {
  }

  /** The document leaves out the active items: with unique ids none of
      their ids is written, so they are absent after a reload. */
  lemma SnapshotOmitsActive(s: State)
    requires Unique(s)
    ensures forall i, j :: 0 <= i < |Save(s).queue| && 0 <= j < |s.active| ==>
      Save(s).queue[i].id != s.active[j].id
    ensures forall i, j :: 0 <= i < |Save(s).history| && 0 <= j < |s.active| ==>
      Save(s).history[i].id != s.active[j].id
    ensures Load(Some(Save(s))).active == []
  {
    UniqueSeparates(s);
    var h := s.history;
    var off := |h| - |Recent(h)|;
    forall i, j | 0 <= i < |Save(s).history| && 0 <= j < |s.active|
      ensures Save(s).history[i].id != s.active[j].id
    {
      assert Save(s).history[i] == h[off + i];
    }
  }

  /** A registry reloaded from the document of a registry with unique ids
      has unique ids. */
  lemma ReloadKeepsUnique(s: State)
    requires Unique(s)
    ensures Unique(Load(Some(Save(s))))
  {
    var h := s.history;
    var off := |h| - |Recent(h)|;
    assert h == h[..off] + Recent(h);
    IdsAppend(h[..off], Recent(h));
    FewerIdsStayUnique(s, Load(Some(Save(s))));
  }
}

=== FILE: Urls.dfy ===
/** URL handling before an item is queued: trimming the entry, rewriting a
    YouTube address to its canonical watch form, and the regular-expression
    search that pulls the 11-character video id out of it. */
module Urls {
  import opened Wrappers

  // ---------------------------------------------------------------------
  // Trimming
  // ---------------------------------------------------------------------

  /** The characters Python's `str.strip()` removes: those for which
      `str.isspace()` holds. */
  predicate IsSpace(c: char) {
    c == ' ' || '\t' <= c <= '\r' || '\U{1c}' <= c <= '\U{1f}'
    || c == '\U{85}' || c == '\U{a0}' || c == '\U{1680}'
    || '\U{2000}' <= c <= '\U{200a}' || c == '\U{2028}' || c == '\U{2029}'
    || c == '\U{202f}' || c == '\U{205f}' || c == '\U{3000}'
  }

  /** The position of the first non-space character, or |s|. */
  function LeadEnd(s: string): (i: nat)
    ensures i <= |s|
    ensures forall k :: 0 <= k < i ==> IsSpace(s[k])
    ensures i < |s| ==> !IsSpace(s[i])
    decreases |s|
  {
    if s == [] || !IsSpace(s[0]) then 0 else 1 + LeadEnd(s[1..])
  }

  /** The length of s without its trailing spaces. */
  function TrailStart(s: string): (j: nat)
    ensures j <= |s|
    ensures forall k :: j <= k < |s| ==> IsSpace(s[k])
    ensures 0 < j ==> !IsSpace(s[j - 1])
    decreases |s|
  {
    if s == [] || !IsSpace(s[|s| - 1]) then |s| else TrailStart(s[..|s| - 1])
  }

  /** `str.strip()`: the entry without leading and trailing whitespace. */
  function Strip(s: string): (r: string)
    ensures |r| <= |s|
    ensures r == [] <==> forall k :: 0 <= k < |s| ==> IsSpace(s[k])
    ensures r != [] ==> !IsSpace(r[0]) && !IsSpace(r[|r| - 1])
    ensures LeadEnd(s) + |r| <= |s| && s[LeadEnd(s)..LeadEnd(s) + |r|] == r
    ensures forall k :: 0 <= k < |s| && !(LeadEnd(s) <= k < LeadEnd(s) + |r|) ==> IsSpace(s[k])
  {
    var i := LeadEnd(s);
    var t := s[i..];
    var j := TrailStart(t);
    assert t[..j] == s[i..i + j];
    assert forall k :: i + j <= k < |s| ==> IsSpace(s[k]) by {
      forall k | i + j <= k < |s| ensures IsSpace(s[k]) {
        assert s[k] == t[k - i];
      }
    }
    assert j != 0 ==> i < |s| && !IsSpace(s[i]) by {
      if j != 0 { assert t[0] == s[i]; }
    }
    t[..j]
  }

  /** Stripping a stripped entry changes nothing. */
  lemma StripIdempotent(s: string)
    ensures Strip(Strip(s)) == Strip(s)
  {
    var r := Strip(s);
    if r != [] {
      assert LeadEnd(r) == 0;
      assert TrailStart(r[0..]) == |r| by { assert r[0..] == r; }
    }
  }

  // ---------------------------------------------------------------------
  // Canonical watch URLs
  // ---------------------------------------------------------------------

  /** What `urlparse` and `parse_qs` deliver to `clean_youtube_url`: the host,
      the path, and the first non-blank value of the `v` query parameter. */
  datatype ParsedUrl = ParsedUrl(netloc: string, path: string, v: Option<string>)

  /** The canonical watch address, up to the video id. */
  const WatchPrefix: string := "https://www.youtube.com/watch?v="

  /** The canonical watch address of a video. */
  function WatchUrl(video: string): (r: string)
    ensures |r| == |WatchPrefix| + |video|
    ensures r[..|WatchPrefix|] == WatchPrefix && r[|WatchPrefix|..] == video
  {
    WatchPrefix + video
  }

  /** Python's `path[1:]`: everything after the first character. */
  function Tail(path: string): string {
    if path == [] then [] else path[1..]
  }

  /** `clean_youtube_url`. `parsed` is None when parsing raises, in which
      case the URL is returned unchanged. A non-empty `v` value wins; else a
      `youtu.be` link gives the watch address of its path without the
      leading character; any other URL is returned unchanged. */
  function CleanYoutubeUrl(url: string, parsed: Option<ParsedUrl>): (r: string)
    ensures parsed.None? ==> r == url
    ensures parsed.Some? && parsed.value.v.Some? && parsed.value.v.value != [] ==>
      r == WatchUrl(parsed.value.v.value)
    ensures parsed.Some? && !(parsed.value.v.Some? && parsed.value.v.value != []) ==>
      r == if parsed.value.netloc == "youtu.be" then WatchUrl(Tail(parsed.value.path)) else url
  {
    match parsed
    case None => url
    case Some(p) =>
      if p.v.Some? && p.v.value != [] then WatchUrl(p.v.value)
      else if p.netloc == "youtu.be" then WatchUrl(Tail(p.path))
      else url
  }

  /** A short link and a watch link for the same video clean to the same
      address. */
  lemma ShortAndLongAgree(short: string, long: string, path: string, video: string, query: Option<string>)
    requires query.None? || query == Some([])
    requires path == ['/'] + video && video != []
    ensures CleanYoutubeUrl(short, Some(ParsedUrl("youtu.be", path, query)))
         == CleanYoutubeUrl(long, Some(ParsedUrl("www.youtube.com", "/watch", Some(video))))
  {
    assert Tail(path) == video;
  }

  // ---------------------------------------------------------------------
  // Video-id patterns
  // ---------------------------------------------------------------------

  /** The class `[0-9A-Za-z_-]`. */
  predicate IdChar(c: char) {
    '0' <= c <= '9' || 'A' <= c <= 'Z' || 'a' <= c <= 'z' || c == '_' || c == '-'
  }

  /** How many characters the id group captures: `{11}`. */
  const IdLength: nat := 11

  /** A string the group `([0-9A-Za-z_-]{11})` can capture. */
  predicate IsVideoId(v: string) {
    |v| == IdLength && forall k :: 0 <= k < |v| ==> IdChar(v[k])
  }

  /** The group matches at position i. */
  predicate IdAt(s: string, i: nat) {
    i + IdLength <= |s| && IsVideoId(s[i..i + IdLength])
  }

  /** The literal lit occurs at position i. */
  predicate LiteralAt(s: string, i: nat, lit: string) {
    i + |lit| <= |s| && s[i..i + |lit|] == lit
  }

  /** The alternative lit followed by the id group matches at position i. */
  predicate Hit(s: string, i: nat, lit: string) {
    LiteralAt(s, i, lit) && IdAt(s, i + |lit|)
  }

  /** The captured group of a hit. */
  function Group(s: string, i: nat, lit: string): (g: string)
    requires Hit(s, i, lit)
    ensures IsVideoId(g)
  {
    s[i + |lit|..i + |lit| + IdLength]
  }

  /** A pattern `(?:a|b|…)([0-9A-Za-z_-]{11})`, given by its alternatives in
      the order the regular-expression engine tries them. Anything after the
      group (the `.*` of the first pattern) always matches and is left out. */
  type Pattern = seq<string>

  /** The match of a pattern anchored at position i: the first alternative
      that hits gives the group. */
  function MatchAt(s: string, i: nat, alts: Pattern): (r: Option<string>)
    ensures r.Some? ==> IsVideoId(r.value)
    decreases |alts|
  {
    if alts == [] then None
    else if Hit(s, i, alts[0]) then Some(Group(s, i, alts[0]))
    else MatchAt(s, i, alts[1..])
  }

  /** A pattern matches at a position exactly when one of its alternatives
      hits there; the group is that of the first alternative that hits. */
  lemma {:induction false} MatchAtSpec(s: string, i: nat, alts: Pattern)
    ensures MatchAt(s, i, alts).None? <==> forall lit :: lit in alts ==> !Hit(s, i, lit)
    ensures MatchAt(s, i, alts).Some? ==>
      exists lit :: lit in alts && Hit(s, i, lit) && MatchAt(s, i, alts).value == Group(s, i, lit)
    ensures forall n :: 0 <= n < |alts| && Hit(s, i, alts[n]) && (forall m :: 0 <= m < n ==> !Hit(s, i, alts[m])) ==>
      MatchAt(s, i, alts) == Some(Group(s, i, alts[n]))
    decreases |alts|
  {
    if alts != [] {
      MatchAtSpec(s, i, alts[1..]);
      assert forall lit :: lit in alts ==> lit == alts[0] || lit in alts[1..];
      assert forall n :: 0 < n < |alts| ==> alts[n] == alts[1..][n - 1];
    }
  }

  /** No position from i to the end of s starts a match. */
  predicate NoMatchFrom(s: string, alts: Pattern, i: nat) {
    forall j :: i <= j <= |s| ==> MatchAt(s, j, alts).None?
  }

  /** `re.search` from position i on: the match at the leftmost position
      where the pattern matches. */
  function SearchFrom(s: string, alts: Pattern, i: nat): (r: Option<string>)
    ensures r.None? <==> NoMatchFrom(s, alts, i)
    ensures r.Some? ==> IsVideoId(r.value)
    decreases |s| + 1 - i
  {
    if i > |s| then None
    else if MatchAt(s, i, alts).Some? then MatchAt(s, i, alts)
    else
      assert NoMatchFrom(s, alts, i) <==> NoMatchFrom(s, alts, i + 1) by {
        if NoMatchFrom(s, alts, i + 1) {
          forall j | i <= j <= |s| ensures MatchAt(s, j, alts).None? {
            if j > i { assert i + 1 <= j; }
          }
        }
      }
      SearchFrom(s, alts, i + 1)
  }

  /** What the search returns is the match at some position. */
  lemma {:induction false} SearchFromFound(s: string, alts: Pattern, i: nat)
    ensures SearchFrom(s, alts, i).Some? ==>
      exists j :: i <= j <= |s| && MatchAt(s, j, alts) == SearchFrom(s, alts, i)
    decreases |s| + 1 - i
  {
    if i <= |s| && MatchAt(s, i, alts).None? {
      SearchFromFound(s, alts, i + 1);
    }
  }

  /** The search returns the match at the first position that has one. */
  lemma {:induction false} SearchFindsLeftmost(s: string, alts: Pattern, i: nat, j: nat)
    requires i <= j <= |s|
    requires forall k :: i <= k < j ==> MatchAt(s, k, alts).None?
    ensures SearchFrom(s, alts, i) == MatchAt(s, j, alts) || MatchAt(s, j, alts).None?
    decreases j - i
  {
    if i < j {
      SearchFindsLeftmost(s, alts, i + 1, j);
    }
  }

  /** `re.search(pattern, s).group(1)`, or None when nothing matches. */
  function Search(s: string, alts: Pattern): Option<string> {
    SearchFrom(s, alts, 0)
  }

  /** The four patterns of `extract_video_id`, in the order they are tried:
      `(?:v=|/)`, `embed/`, `shorts/` and `youtu.be/`, each followed by the id. */
  const Patterns: seq<Pattern> := [["v=", "/"], ["embed/"], ["shorts/"], ["youtu.be/"]]

  /** The group of the first pattern in the list that matches somewhere. */
  function FirstMatch(s: string, pats: seq<Pattern>): (r: Option<string>)
    ensures r.Some? ==> IsVideoId(r.value)
    decreases |pats|
  {
    if pats == [] then None
    else
      var m := Search(s, pats[0]);
      if m.Some? then m else FirstMatch(s, pats[1..])
  }

  /** `extract_video_id`. */
  function ExtractVideoId(url: string): (r: Option<string>)
    ensures r.Some? ==> IsVideoId(r.value)
  {
    FirstMatch(url, Patterns)
  }

  /** An alternative that ends in a slash hits only where the bare slash of
      the first pattern hits too, with the same group. */
  lemma SlashHit(s: string, i: nat, lit: string)
    requires |lit| >= 1 && lit[|lit| - 1] == '/'
    ensures Hit(s, i, lit) ==> Hit(s, i + |lit| - 1, "/") && Group(s, i + |lit| - 1, "/") == Group(s, i, lit)
  {
    if Hit(s, i, lit) {
      var p := i + |lit| - 1;
      assert s[i..i + |lit|][|lit| - 1] == s[p];
      assert s[p..p + 1] == "/";
    }
  }

  /** A single-alternative pattern ending in a slash finds nothing where the
      first pattern finds nothing. */
  lemma SubsumedBySlash(s: string, p: Pattern)
    requires |p| == 1 && |p[0]| >= 1 && p[0][|p[0]| - 1] == '/'
    ensures Search(s, Patterns[0]).None? ==> Search(s, p).None?
  {
    forall j | 0 <= j <= |s|
      ensures MatchAt(s, j, p).Some? ==>
        j + |p[0]| - 1 <= |s| && MatchAt(s, j + |p[0]| - 1, Patterns[0]).Some?
    {
      SlashHit(s, j, p[0]);
      MatchAtSpec(s, j, p);
      MatchAtSpec(s, j + |p[0]| - 1, Patterns[0]);
      assert "/" in Patterns[0];
    }
  }

  /** Only the first pattern of `extract_video_id` decides its result: the
      `embed/`, `shorts/` and `youtu.be/` patterns can never match where the
      first one has not. */
  lemma OnlyFirstPatternCounts(url: string)
    ensures ExtractVideoId(url) == Search(url, Patterns[0])
  {
    SubsumedBySlash(url, Patterns[1]);
    SubsumedBySlash(url, Patterns[2]);
    SubsumedBySlash(url, Patterns[3]);
    assert Patterns[1..][0] == Patterns[1];
    assert Patterns[1..][1..][0] == Patterns[2];
    assert Patterns[1..][1..][1..][0] == Patterns[3];
    assert Patterns[1..][1..][1..][1..] == [];
  }

  /** What a search returns is an id that occurs in the string searched. */
  lemma SearchFindsId(s: string, alts: Pattern)
    ensures Search(s, alts).Some? ==>
      exists j: nat :: IdAt(s, j) && Search(s, alts).value == s[j..j + IdLength]
  {
    SearchFromFound(s, alts, 0);
    if Search(s, alts).Some? {
      var j :| 0 <= j <= |s| && MatchAt(s, j, alts) == Search(s, alts);
      MatchAtSpec(s, j, alts);
      var lit :| lit in alts && Hit(s, j, lit) && Search(s, alts).value == Group(s, j, lit);
      assert IdAt(s, j + |lit|);
    }
  }

  /** What `extract_video_id` returns is an 11-character id that occurs in
      the URL. */
  lemma ExtractFindsIdInUrl(url: string)
    ensures ExtractVideoId(url).Some? ==>
      exists j: nat :: IdAt(url, j) && ExtractVideoId(url).value == url[j..j + IdLength]
  {
    OnlyFirstPatternCounts(url);
    SearchFindsId(url, Patterns[0]);
  }

  /** `extract_video_id` accepts a URL exactly when somewhere in it `v=` or
      a slash is followed by 11 id characters, whatever the host. */
  lemma ExtractAcceptsIff(url: string)
    ensures ExtractVideoId(url).Some? <==>
      exists j :: 0 <= j <= |url| && (Hit(url, j, "v=") || Hit(url, j, "/"))
  {
    OnlyFirstPatternCounts(url);
    forall j | 0 <= j <= |url|
      ensures MatchAt(url, j, Patterns[0]).Some? <==> Hit(url, j, "v=") || Hit(url, j, "/")
    {
      MatchAtSpec(url, j, Patterns[0]);
      assert forall lit :: lit in Patterns[0] <==> lit == "v=" || lit == "/";
    }
  }

  /** The canonical address of any id-shaped video value yields that id:
      `v=` right before the value is the leftmost match. */
  lemma CanonicalYieldsId(video: string)
    requires IdAt(video, 0)
    ensures ExtractVideoId(WatchUrl(video)) == Some(video[..IdLength])
  {
    var s := WatchUrl(video);
    OnlyFirstPatternCounts(s);
    forall j | 0 <= j < 30 ensures MatchAt(s, j, Patterns[0]).None? {
      NoMatchInPrefix(s, j);
    }
    VideoMatchAfterPrefix(video);
    SearchFindsLeftmost(s, Patterns[0], 0, 30);
  }

  /** The `v=` at the end of the watch prefix, followed by the video value,
      matches the first pattern. */
  lemma VideoMatchAfterPrefix(video: string)
    requires IdAt(video, 0)
    ensures MatchAt(WatchUrl(video), 30, Patterns[0]) == Some(video[..IdLength])
  {
    var s := WatchUrl(video);
    assert WatchPrefix[30] == 'v' && WatchPrefix[31] == '=';
    assert s[30] == WatchPrefix[30] && s[31] == WatchPrefix[31];
    assert s[30..32] == "v=";
    assert s[32..32 + IdLength] == video[..IdLength];
    assert Hit(s, 30, "v=");
  }

  /** No position of the watch prefix before `v=` starts a match. */
  lemma NoMatchInPrefix(s: string, j: nat)
    requires |WatchPrefix| <= |s| && s[..|WatchPrefix|] == WatchPrefix
    requires j < 30
    ensures MatchAt(s, j, Patterns[0]).None?
  {
    PrefixChars(j);
    assert s[j] == WatchPrefix[j];
    if j == 6 || j == 7 || j == 23 {
      var bad := if j == 6 then 7 else if j == 7 then 11 else 29;
      assert s[bad] == WatchPrefix[bad];
      assert !IdChar(s[bad]);
      if j + 1 + IdLength <= |s| {
        assert s[j + 1..j + 1 + IdLength][bad - j - 1] == s[bad];
      }
    } else {
      assert s[j..j + 1][0] == s[j];
      assert s[j..j + 2][0] == s[j];
    }
  }

  /** Before `v=`, the watch prefix has slashes only at 6, 7 and 23, no `v`,
      and no id character at 7, 11 and 29. */
  lemma PrefixChars(j: nat)
    requires j < 30
    ensures j != 6 && j != 7 && j != 23 ==> WatchPrefix[j] != '/' && WatchPrefix[j] != 'v'
    ensures !IdChar(WatchPrefix[7]) && !IdChar(WatchPrefix[11]) && !IdChar(WatchPrefix[29])
  {
  }
}

=== FILE: Wrappers.dfy ===
/** The optional-value datatype used throughout the model: Python's `None`
    or a present value. */
module Wrappers {

  datatype Option<+T> = None | Some(value: T)
}
